=== FILE: README.md ===
# Workspace registry model

A Dafny model of the workspace registry of the desktop app (`public/libs/workspaces.js`).
The registry is a module-level table that maps a workspace id to a workspace record (a plain
object). It is loaded lazily from the settings store under the schema version `43`. A Singlebox
build migrates its legacy table from version `14`. A single-URL build that finds nothing gets one
default workspace. Every change is applied to the table in memory and written to the store.

The model is laid out like this:

- `values.dfy` (`Values`): JSON-like values and records, object spread, truthiness, and JavaScript
  property keys.
- `tables.dfy` (`Tables`): a JavaScript object used as a table. It keeps its keys in insertion
  order, because `Object.values(...).find(...)` and the tie order of the stable sort depend on
  that. It has assignment, `delete` and `Object.assign`.
- `ordering.dfy` (`Ordering`): the sort of `getWorkspacesAsList` and the largest-order scan of
  `createWorkspace`.
- `navigation.dfy` (`Navigation`): the circular next/previous lookups.
- `lifecycle.dfy` (`Lifecycle`): the specification functions of the stateful operations:
  - loading and migration;
  - the record `createWorkspace` builds;
  - the writes of `setActiveWorkspace`;
  - the store and how it mirrors memory.
- `guards.dfy` (`Guards`): the decisions of the picture and account-info pipelines.
- `workspaces.dfy` (`Workspaces.Registry`): the registry itself. It is a class with these fields:
  - the live table `workspaces`;
  - the `initialized` flag (the module variable is set);
  - the settings `store`, kept as a map from schema version to table.

  Each exported function of the source is a method of this class.

### Class invariant and specification style

The class invariant `Valid` says the following:

- the table is well formed;
- before loading, the table is empty;
- after loading, the stored table mirrors the live one. It may differ only by the corrupt `add`
  key, which loading strips from memory without writing that back.

`Ready()` is the table and store an operation finds once loading has run. Every method that loads
first states its result in terms of `old(Ready())`.

### Edge behaviours the model shows

- `Lifecycle.ActivationOfAbsentId`: `setActiveWorkspace` on an unknown id does not throw.
  `{ ...workspaces[id] }` is `{}`, so a record holding only `active` and `hibernated` is created.
  Only a call made before loading throws.
- `Lifecycle.ActivationOfAbsentIdTwice`: activating an absent id twice writes a deactivated copy
  of that record under the key `"undefined"`. The record has no `id` field, and the source
  writes it back under `currentActiveWorkspace.id`.
- `Lifecycle.LoadDropsCorruptKey`: a legacy Singlebox table is merged after the `add` key is
  stripped, so an `add` entry in the legacy table survives loading.

## Model

| member | source | states |
|---|---|---|
| Values.Merge | public/libs/workspaces.js:186 | object spread: the keys are the union, a key of the patch takes the patch's value, every other key keeps the base's |
| Values.PropertyKey | public/libs/workspaces.js:171-173 | the key a value names as a property: a string names itself, `undefined` names `"undefined"`, and a non-negative number names a digit string whose decimal value is that number |
| Values.DecimalValue | public/libs/workspaces.js:171-173 | the digits written for a number read back as that number |
| Tables.Table.Values | public/libs/workspaces.js:74 | `Object.values`: one value per key, in key order, each the record under that key |
| Tables.Get | public/libs/workspaces.js:82 | a present key yields its record, an absent key yields `undefined` |
| Tables.Lookup | public/libs/workspaces.js:177 | `{ ...workspaces[id] }` (also at line 186): the record `Get` finds, or `{}` when there is none |
| Tables.Put | public/libs/workspaces.js:151 | assignment: the key maps to the new record, other entries are unchanged, an existing key keeps its place and a new key goes last (so the count goes up by one) |
| Tables.Remove | public/libs/workspaces.js:303 | `delete`: the key is gone, other entries are unchanged and the remaining keys keep their relative order, the count drops by one exactly when the key was present, and an absent key changes nothing |
| Tables.RemoveUndoesPut | public/libs/workspaces.js:303 | deleting a key that was just added gives back the previous table, key order included |
| Tables.Assign | public/libs/workspaces.js:42 | `Object.assign`: entries of the source win and other entries are kept; the target's keys stay first in their order, and the keys added after them come from the source in the source's key order |
| Tables.AssignKeysOrder | public/libs/workspaces.js:42 | the keys the copy loop appends are keys of the source, in the source's order |
| Tables.ValuesMember | public/libs/workspaces.js:161 | a record is among `Object.values` iff it is held under some key |
| Ordering.SortByOrder | public/libs/workspaces.js:74-75 | the sorted list has the same records with the same multiplicities (a permutation) |
| Ordering.SortIsSorted | public/libs/workspaces.js:74-75 | the sorted list ascends by `order` |
| Ordering.SortIsStable | public/libs/workspaces.js:74-75 | records of equal `order` keep their relative table order (the stable sort's tie order) |
| Ordering.MaxOrder | public/libs/workspaces.js:134-139 | the scan's result is at least 0, at least every record's order, and either 0 or some record's order |
| Navigation.Find | public/libs/workspaces.js:99-104 | the first index whose record has this `id`, or none when no record has it |
| Navigation.Position | public/libs/workspaces.js:98-104 | the start index of both lookups: within the list when it is non-empty, 0 when no record has the id, and otherwise the first index whose record has it |
| Navigation.FindPosition | public/libs/workspaces.js:98-104 | the search loop ends at the first matching index, or at 0 when the id is unknown |
| Navigation.Next | public/libs/workspaces.js:112-127 | there is a next record iff the list is non-empty, and it is one of the list's records |
| Navigation.Previous | public/libs/workspaces.js:95-110 | there is a previous record iff the list is non-empty, and it is one of the list's records |
| Navigation.NextIn | public/libs/workspaces.js:112-127 | the source's branches (the last index wraps to 0, else index + 1, `undefined` for an empty list) compute element (i + 1) mod n |
| Navigation.PreviousIn | public/libs/workspaces.js:95-110 | the source's branches (index 0 wraps to the last element, else index - 1) compute element (i - 1 + n) mod n |
| Navigation.PositionOfId | public/libs/workspaces.js:98-104 | the search stops at the first record carrying the id; no other record needs an id |
| Navigation.UnknownId | public/libs/workspaces.js:98-126 | an unknown id counts as index 0: next is element 1 (element 0 when n = 1) and previous is the last element |
| Navigation.Neighbours | public/libs/workspaces.js:95-127 | for the first record carrying the id, at index i, next is element (i + 1) mod n and previous is element (i - 1 + n) mod n, whatever the other records hold |
| Navigation.PreviousOfNext | public/libs/workspaces.js:95-127 | in a list where no two records carry the same string `id` (records without one allowed), previous of next of a present id is that id's record, provided the next record carries an id |
| Navigation.NextOfPrevious | public/libs/workspaces.js:95-127 | in a list where no two records carry the same string `id` (records without one allowed), next of previous of a present id is that id's record, provided the previous record carries an id |
| Lifecycle.StoredTable | public/libs/workspaces.js:30 | the stored table, or `{}` when nothing is stored, is well formed |
| Lifecycle.StorePut | public/libs/workspaces.js:154 | a write to `workspaces.43.<id>` makes the stored table the old one with that record put under the id; every other version is untouched |
| Lifecycle.StoreUnset | public/libs/workspaces.js:305 | an unset of `workspaces.43.<id>` makes the stored table the old one with the id deleted; every other version is untouched |
| Lifecycle.StorePutAll | public/libs/workspaces.js:173-182 | a series of writes keeps the store well formed and leaves every version other than 43 untouched (so an unset legacy version stays unset) |
| Lifecycle.MirroredPut | public/libs/workspaces.js:151-154 | writing the same record to memory and to the store keeps the store mirroring memory |
| Lifecycle.MirroredRemove | public/libs/workspaces.js:303-305 | deleting from memory and unsetting in the store keeps the mirror |
| Lifecycle.MirroredPutAll | public/libs/workspaces.js:171-182 | the same series of writes to both sides keeps the mirror |
| Lifecycle.LoadMirrored | public/libs/workspaces.js:27-61 | after loading, the stored table mirrors the live one (they differ at most by the stripped `add` key) |
| Lifecycle.Load | public/libs/workspaces.js:27-61 | the live table and the store after loading are well formed; the content is given by the `Load*` lemmas |
| Lifecycle.Merged | public/libs/workspaces.js:30-46 | the table after stripping and merging is well formed, keeps every stored key except `add`, and holds `add` only when a Singlebox legacy table brought it |
| Lifecycle.LoadDropsCorruptKey | public/libs/workspaces.js:31-46 | the loaded table holds `add` only if a Singlebox legacy table brought it back or the seed id is `add` |
| Lifecycle.LoadMergesLegacy | public/libs/workspaces.js:38-46 | in a Singlebox build with legacy data: every legacy entry is taken over and wins on a shared key; every other current entry except `add` is kept; the merged table is persisted under version 43; version 14 is unset |
| Lifecycle.LoadSeedsDefault | public/libs/workspaces.js:48-57 | a single-URL build with an empty merged table gets exactly one record, with its id, name `''`, order 0 and active, and it is persisted |
| Lifecycle.LoadWithoutSeed | public/libs/workspaces.js:48-60 | in any other case the live table is the merged one |
| Lifecycle.NewRecord | public/libs/workspaces.js:141-149 | the new record has no `picture`, keeps every other field of the caller's object, and defaults to inactive, not hibernated, name `''`, the new id, and order max + 1 |
| Lifecycle.NewOrderExceeds | public/libs/workspaces.js:132-146 | with no caller-supplied order, the new order is at least 1, above every existing order, and either 1 or one more than an existing order |
| Lifecycle.FindActive | public/libs/workspaces.js:161 | the index of the first active record, and none when no record is active |
| Lifecycle.ActiveRecord | public/libs/workspaces.js:159-162 | the found record is active and is the first active one in key order (the record `find` returns); none means no record is active |
| Lifecycle.ActivationWrites | public/libs/workspaces.js:164-183 | no write iff the first active record already has the id; otherwise at most two writes and the last activates `id`; with two, the first is the first active record, deactivated, under the key its `id` names |
| Lifecycle.Activated | public/libs/workspaces.js:164-183 | the table after those writes is well formed; the content is given by `ActivatedShape` and the `Activation*` lemmas |
| Lifecycle.ActivatedShape | public/libs/workspaces.js:164-183 | no active record: only `id` is written, as active and not hibernated; `id` already first active: nothing changes and no write is issued to memory or the store; otherwise the active record is written back deactivated, then `id` is activated |
| Lifecycle.ActivationFromNone | public/libs/workspaces.js:176-182 | from no active record: `id` alone is active afterwards, its other fields are kept, and every other record is unchanged |
| Lifecycle.ActivationFromOther | public/libs/workspaces.js:167-182 | when the first active record is the only active one and sits under a key other than `id` that its own `id` names: that record is only deactivated, `id` alone is active with its other fields kept, and every other record is unchanged |
| Lifecycle.ActivationLeavesOneActive | public/libs/workspaces.js:164-183 | with at most one active record (naming its key) before, exactly one record, `id`'s, is active afterwards; the rest are unchanged or only deactivated |
| Lifecycle.ActivationIdempotent | public/libs/workspaces.js:168 | when at most one record is active, every active record names its own key, and the record under `id` names `id`: activating `id` a second time changes nothing and issues no write |
| Lifecycle.ActivationSwitch | public/libs/workspaces.js:169-173 | the previously active record, deactivated and otherwise unchanged, ends up under the key its `id` names |
| Lifecycle.ActivationOfAbsentId | public/libs/workspaces.js:177-180 | activating an id absent from an empty table creates a record holding only `active: true` and `hibernated: false` |
| Lifecycle.ActivationOfAbsentIdTwice | public/libs/workspaces.js:168-180 | activating an absent id twice leaves a deactivated copy of that record under the key `"undefined"` |
| Lifecycle.ActivationKeepsMisnamedActive | public/libs/workspaces.js:169-182 | when the only active record names another key than its own, activating a third id leaves that record active and the new one active too |
| Lifecycle.ActivationTwiceWithTwoActive | public/libs/workspaces.js:164-183 | with two active records, each naming its own key, activating a third id a second time still issues writes (the second active record is found then) |
| Lifecycle.PreferencesOf | public/libs/workspaces.js:85-88 | the preferences are always truthy: the record's truthy `preferences`, and `{}` for an absent workspace or one without truthy `preferences` |
| Lifecycle.PreferenceOf | public/libs/workspaces.js:90-93 | a preference is found iff the existing workspace's `preferences` object holds that name, and then it is the value stored there |
| Guards.WithPicture | public/libs/workspaces.js:226-230 | after the update, the picture path equals the new file (a second request for it is a no-op), and every other field is kept |
| Guards.WithoutPicture | public/libs/workspaces.js:243-246 | after removal `pictureId` and `picturePath` are both `null` (so there is no picture path), and every other field is kept |
| Guards.PictureUnchanged | public/libs/workspaces.js:202-204 | the "same picture" guard: it can hold only for a record that has a picture (for a non-empty source), never for an `undefined` or `null` path |
| Guards.PlanAccountInfo | public/libs/workspaces.js:253-267 | nothing is done iff the workspace is absent or the picture URL, name and e-mail are all unchanged; a download is made iff the picture URL changed and is non-empty |
| Guards.SameAccount | public/libs/workspaces.js:256-258 | the "nothing changes" test: the same info always passes, and passing needs each of picture URL, name and e-mail present on both sides or on neither |
| Guards.StoredAccountInfo | public/libs/workspaces.js:263-273 | the stored info keeps every field of the given info, and adds the picture's id and path iff a download was made |
| Guards.AccountInfoIdempotent | public/libs/workspaces.js:256-261 | once the info is stored, offering the same info again is a no-op |
| Guards.AccountPictureOf | public/libs/workspaces.js:293-295 | there is an account picture file to delete iff `accountInfo` and its `picturePath` are truthy |
| Guards.RemovalFiles | public/libs/workspaces.js:310-317 | the files `removeWorkspace` deletes: none for an absent workspace, otherwise the truthy `picturePath` first and then the truthy account picture, exactly those |
| Workspaces.Registry.constructor | public/libs/workspaces.js:25 | the registry starts unloaded and empty, over the given store |
| Workspaces.Registry.Write | public/libs/workspaces.js:186-189 | one assignment mirrored by one store write: memory and the store receive the same record under the key, and the mirror is kept |
| Workspaces.Registry.Unset | public/libs/workspaces.js:303-305 | `delete` in memory followed by the unset in the store: the id leaves both tables, every other entry and the key order are kept, and the mirror between them holds |
| Workspaces.Registry.Init | public/libs/workspaces.js:27-61 | the first call leaves the table and store given by `Lifecycle.Load`; later calls change nothing, even when the table is empty |
| Workspaces.Registry.CountWorkspaces | public/libs/workspaces.js:63-66 | the number of keys of the loaded table |
| Workspaces.Registry.GetWorkspaces | public/libs/workspaces.js:68-71 | the loaded table |
| Workspaces.Registry.GetWorkspacesAsList | public/libs/workspaces.js:73-78 | a permutation of the loaded table's records, sorted ascending by order, with ties in table order |
| Workspaces.Registry.GetWorkspace | public/libs/workspaces.js:80-83 | the loaded table's record under the id, or `undefined` |
| Workspaces.Registry.GetWorkspacePreferences | public/libs/workspaces.js:85-88 | the preferences of the loaded record, `{}` when there are none |
| Workspaces.Registry.GetWorkspacePreference | public/libs/workspaces.js:90-93 | the named preference of the loaded record |
| Workspaces.Registry.GetPreviousWorkspace | public/libs/workspaces.js:95-110 | the circular predecessor in the ordered list |
| Workspaces.Registry.GetNextWorkspace | public/libs/workspaces.js:112-127 | the circular successor in the ordered list |
| Workspaces.Registry.NewWorkspace | public/libs/workspaces.js:130-148 | the record built from the defaults and the caller's fields; without a caller order, its order is above every existing one and at least 1 |
| Workspaces.Registry.CreateWorkspace | public/libs/workspaces.js:129-157 | the new record gets the defaults, never `picture`, and an order above all others; it is put under the fresh id in memory and in the store, and nothing else changes |
| Workspaces.Registry.GetActiveWorkspace | public/libs/workspaces.js:159-162 | nothing before loading; otherwise the first active record in key order, or nothing when none is active |
| Workspaces.Registry.SetActiveWorkspace | public/libs/workspaces.js:164-183 | before loading nothing changes (the source throws); otherwise memory becomes `Lifecycle.Activated` and the store receives the same writes; the loaded flag never changes |
| Workspaces.Registry.SetWorkspace | public/libs/workspaces.js:185-190 | before loading nothing changes (the source throws); otherwise the record becomes the old one (or `{}`) merged with the options, other ids are unchanged, and the persisted entry equals the one in memory; the loaded flag never changes |
| Workspaces.Registry.SetWorkspaces | public/libs/workspaces.js:192-196 | the table is replaced and persisted whole |
| Workspaces.Registry.SetWorkspacePicture | public/libs/workspaces.js:198-236 | an absent workspace throws; the same picture, or a source that cannot be fetched or decoded, changes nothing; otherwise the record points at the new file and the old file is named for deletion |
| Workspaces.Registry.RemoveWorkspacePicture | public/libs/workspaces.js:238-250 | an absent workspace throws; a record with a picture names its file, and once the file is deleted both picture fields are null |
| Workspaces.Registry.SetWorkspaceAccountInfo | public/libs/workspaces.js:252-284 | the decision of `Guards.PlanAccountInfo` is taken; the copy of the info (with the downloaded picture) is stored unless nothing changed or the download failed |
| Workspaces.Registry.RemoveWorkspaceAccountInfo | public/libs/workspaces.js:286-298 | `accountInfo` becomes null under the id, even for an absent workspace, which then throws; the account picture file is named for deletion |
| Workspaces.Registry.RemoveWorkspace | public/libs/workspaces.js:300-328 | before loading nothing changes (the source throws); otherwise the id is gone from memory and from the store at once, every other entry is unchanged, the registry stays loaded (even when it is now empty), and the files queued for deletion are exactly `Guards.RemovalFiles` of the removed record |

## Left out

- Broadcasting to windows (`sendToAllWindows`) is left out: it is a notification with no effect on the registry.
- The file system and images (`fs.remove`, `Jimp`, `tmp`, `downloadAsync`, `isUrl`, `app.getPath`, `path.join`) are left out. Their outcomes enter as parameters: `decoded`, `removed` and `downloaded`, and the paths `dest` and `picturePath`.
- The partition directory that `removeWorkspace` deletes is not modelled.
- The `uuidv1` and `uuidv5` ids are parameters: `seedId` of the constructor, `newId`, and `pictureId`. The model does not require them to be fresh.
- The asynchronous continuations run to their end at once. Interleaving them with other calls, and the races between overlapping picture updates, are not modelled.
- `console.log` error swallowing is not modelled, and neither is the asynchronous `settings.unset` of the legacy version (the model treats it as immediate).
- Workspaces.Registry.SetWorkspacePicture: the outcome of writing the resized file is not an input. The write reports to `resolve` even when it fails, so a failed write still points the record at the unwritten file.
- Workspaces.Registry.SetWorkspaceAccountInfo: `uuidv5` of a picture URL that is not a string throws inside the promise chain, so nothing is stored. The model stores the info anyway, because the `uuid` library is not part of this model.
- Lifecycle.LoadDropsCorruptKey: states "no `add` key" only outside two cases. The code lets a legacy `add` entry back in after stripping, and the seed id is not constrained.
- Lifecycle.ActivationLeavesOneActive: assumes the active record's `id` names its own key. The source writes the deactivated copy under `currentActiveWorkspace.id`, so without that assumption the old record stays active under its key (`Lifecycle.ActivationKeepsMisnamedActive`).
- Lifecycle.ActivationIdempotent: assumes that at most one record is active, that every active record names its own key, and that the record under `id` names `id`. `Lifecycle.ActivationTwiceWithTwoActive` shows a table with two active records where a second activation writes again; `setWorkspace` and `createWorkspace` with `active: true` can produce such a table. `Lifecycle.ActivationOfAbsentIdTwice` shows a record under `id` that does not name `id`.
- Ordering.SortByOrder: a record whose `order` is missing or not a number sorts as order 0. In JavaScript the comparator then yields `NaN` (or coerces a boolean or numeric string), and the order depends on the engine. Numbers are modelled as integers.
- Ordering.MaxOrder: a non-numeric `order` counts as 0. In JavaScript `'5' > 0` holds and `max + 1` would then concatenate.
- Tables.Table.Values: keys are enumerated in insertion order. JavaScript lists integer-like keys first, in numeric order. Workspace ids are UUIDs, so this does not arise for them.
- Property reads that reach `Object.prototype` (an id such as `constructor`) are not modelled, and neither are reads of a property of a primitive `preferences` or `accountInfo`.
- Lifecycle.StorePut: a dotted id addresses a nested path in the settings store. The model treats the id as one key.
- Workspaces.Registry.GetWorkspaces: the source returns the live object, and callers that mutate it change the registry. The model returns a value.
- Workspaces.Registry.SetWorkspaces: requires a well-formed table. `setWorkspaces(null)` would leave the registry unloaded, and that is not modelled.
- Guards.SameAccount compares values structurally. JavaScript `===` compares objects by identity.
- Workspaces.Registry.GetActiveWorkspace: both the `null` returned before loading and the `undefined` returned when no record is active become `None`.

=== FILE: guards.dfy ===
/** The decisions taken by the picture and account-info pipelines
    (`setWorkspacePicture`, `removeWorkspacePicture`, `setWorkspaceAccountInfo`,
    `removeWorkspaceAccountInfo`); the downloads, image resizing and file removals
    they drive are outside the model. */
module Guards {
  import opened Values

  /** `workspace.picturePath === sourcePicturePath`: the picture is already in place. */
  predicate PictureUnchanged(w: Record, source: string)
    ensures PictureUnchanged(w, source) && source != "" ==> HasPicture(w)
    ensures Field(w, "picturePath") == None || Field(w, "picturePath") == Some(Null) ==> !PictureUnchanged(w, source)
  {
    Field(w, "picturePath") == Some(Str(source))
  }

  /** The record once a new picture has been written: `pictureId` and `picturePath` point at
      it, every other field is kept, and setting the same path again is a no-op. */
  function WithPicture(w: Record, pictureId: string, dest: string): (r: Record)
    ensures PictureUnchanged(r, dest)
    ensures Field(r, "pictureId") == Some(Str(pictureId))
    ensures forall k :: k in w && k != "pictureId" && k != "picturePath" ==> k in r && r[k] == w[k]
    ensures r.Keys == w.Keys + {"pictureId", "picturePath"}
  {
    Merge(w, map["pictureId" := Str(pictureId), "picturePath" := Str(dest)])
  }

  /** `removeWorkspacePicture`: a file is deleted only when the record holds a picture path. */
  predicate HasPicture(w: Record)
  {
    "picturePath" in w && Truthy(w["picturePath"])
  }

  /** The record once its picture file is gone: both picture fields are null. */
  function WithoutPicture(w: Record): (r: Record)
    ensures Field(r, "pictureId") == Some(Null) && Field(r, "picturePath") == Some(Null)
    ensures !HasPicture(r)
    ensures forall k :: k in w && k != "pictureId" && k != "picturePath" ==> k in r && r[k] == w[k]
  {
    Merge(w, map["pictureId" := Null, "picturePath" := Null])
  }

  /** `workspace.accountInfo || {}`, as seen by property reads. */
  function CurrentAccount(w: Record): map<string, Value>
  {
    FieldsOf(Field(w, "accountInfo"))
  }

  /** The "nothing changes" test: picture URL, name and e-mail all as stored. */
  predicate SameAccount(current: map<string, Value>, info: map<string, Value>)
    ensures current == info ==> SameAccount(current, info)
    ensures SameAccount(current, info) ==>
              && ("pictureUrl" in current <==> "pictureUrl" in info)
              && ("name" in current <==> "name" in info)
              && ("email" in current <==> "email" in info)
  {
    && Field(current, "pictureUrl") == Field(info, "pictureUrl")
    && Field(current, "name") == Field(info, "name")
    && Field(current, "email") == Field(info, "email")
  }

  datatype AccountPlan =
    | NoChange                 // the workspace is absent or nothing relevant changed
    | Update(download: bool)   // store the new info, after fetching its picture when `download`

  /** What `setWorkspaceAccountInfo(id, info)` sets out to do for the record `w` under `id`. */
  function PlanAccountInfo(w: Option<Record>, info: map<string, Value>): (p: AccountPlan)
    ensures p == NoChange <==> w.None? || SameAccount(CurrentAccount(w.value), info)
    ensures p.Update? && p.download <==>
              && w.Some? && !SameAccount(CurrentAccount(w.value), info)
              && Field(CurrentAccount(w.value), "pictureUrl") != Field(info, "pictureUrl")
              && "pictureUrl" in info && Truthy(info["pictureUrl"])
  {
    if w.None? then NoChange
    else
      var current := CurrentAccount(w.value);
      if SameAccount(current, info) then NoChange
      else Update(Field(current, "pictureUrl") != Field(info, "pictureUrl")
                  && "pictureUrl" in info && Truthy(info["pictureUrl"]))
  }

  /** The account info that is stored: a copy of `info`, plus the downloaded picture's id and
      path when a download was made. */
  function StoredAccountInfo(info: map<string, Value>, downloaded: bool, pictureId: string, picturePath: string)
    : (a: map<string, Value>)
    ensures SameAccount(a, info)
    ensures downloaded ==> Field(a, "pictureId") == Some(Str(pictureId)) && Field(a, "picturePath") == Some(Str(picturePath))
    ensures !downloaded ==> a == info
    ensures forall k :: k in info && k != "pictureId" && k != "picturePath" ==> k in a && a[k] == info[k]
    ensures a.Keys == if downloaded then info.Keys + {"pictureId", "picturePath"} else info.Keys
  {
    if downloaded then info["pictureId" := Str(pictureId)]["picturePath" := Str(picturePath)] else info
  }

  /** `setWorkspace(id, { accountInfo })`. */
  function WithAccountInfo(w: Record, a: Value): Record
  {
    Merge(w, map["accountInfo" := a])
  }

  /** Storing account info and then offering the same info again changes nothing. */
  lemma AccountInfoIdempotent(w: Record, info: map<string, Value>, downloaded: bool, pictureId: string, picturePath: string)
    ensures var w' := WithAccountInfo(w, Obj(StoredAccountInfo(info, downloaded, pictureId, picturePath)));
      PlanAccountInfo(Some(w'), info) == NoChange
  {
    var a := StoredAccountInfo(info, downloaded, pictureId, picturePath);
    assert CurrentAccount(WithAccountInfo(w, Obj(a))) == a;
  }

  /** `removeWorkspace`: the files queued for deletion after the partition directory, the
      workspace picture first and then the account picture. */
  function RemovalFiles(w: Option<Record>): (files: seq<Value>)
    ensures forall v :: v in files ==> Truthy(v)
    ensures w.None? ==> files == []
    ensures w.Some? ==> |files| == (if HasPicture(w.value) then 1 else 0) + (if AccountPictureOf(w.value).Some? then 1 else 0)
    ensures w.Some? && HasPicture(w.value) ==> files[0] == w.value["picturePath"]
    ensures w.Some? && AccountPictureOf(w.value).Some? ==> files[|files| - 1] == AccountPictureOf(w.value).value
  {
    match w
    case None => []
    case Some(r) =>
      (if HasPicture(r) then [r["picturePath"]] else [])
      + (match AccountPictureOf(r) case Some(p) => [p] case None => [])
  }

  /** `removeWorkspaceAccountInfo`: the account picture file to delete, if any. */
  function AccountPictureOf(w: Record): (p: Option<Value>)
    ensures p.Some? ==> Truthy(p.value)
    ensures p.Some? <==> "accountInfo" in w && Truthy(w["accountInfo"])
                         && "picturePath" in FieldsOf(Some(w["accountInfo"]))
                         && Truthy(FieldsOf(Some(w["accountInfo"]))["picturePath"])
  {
    if "accountInfo" in w && Truthy(w["accountInfo"]) then
      var a := FieldsOf(Some(w["accountInfo"]));
      if "picturePath" in a && Truthy(a["picturePath"]) then Some(a["picturePath"]) else None
    else None
  }
}

=== FILE: lifecycle.dfy ===
/** What the registry's operations compute, as functions of the table and the store:
    loading and migration, the record `createWorkspace` builds, the writes of
    `setActiveWorkspace`, and how the persisted table mirrors the one in memory. */
module Lifecycle {
  import opened Values
  import opened Tables

  /** The schema version the registry is stored under (`workspaces.43`). */
  const SchemaVersion := "43"
  /** The version Singlebox used before it was merged into this product (`workspaces.14`). */
  const LegacyVersion := "14"
  /** The product id that owns the legacy data. */
  const SingleboxId := "singlebox"
  /** The key left behind by a corrupt earlier release. */
  const CorruptKey := "add"

  /** Every stored table is a well-formed object. */
  ghost predicate StoreValid(store: map<string, Table>)
  {
    forall v :: v in store ==> store[v].Valid()
  }

  /** `settings.getSync('workspaces.43') || {}`. */
  function StoredTable(store: map<string, Table>): (t: Table)
    requires StoreValid(store)
    ensures t.Valid()
  {
    if SchemaVersion in store then store[SchemaVersion] else Empty()
  }

  /** `settings.setSync('workspaces.43.<k>', r)`. */
  function StorePut(store: map<string, Table>, k: string, r: Record): (s: map<string, Table>)
    requires StoreValid(store)
    ensures StoreValid(s)
    ensures SchemaVersion in s && StoredTable(s) == Put(StoredTable(store), k, r)
    ensures forall v :: v != SchemaVersion ==> (v in s <==> v in store) && (v in s ==> s[v] == store[v])
  {
    store[SchemaVersion := Put(StoredTable(store), k, r)]
  }

  /** `settings.unsetSync('workspaces.43.<k>')`; nothing happens when there is no table. */
  function StoreUnset(store: map<string, Table>, k: string): (s: map<string, Table>)
    requires StoreValid(store)
    ensures StoreValid(s)
    ensures StoredTable(s) == Remove(StoredTable(store), k)
    ensures forall v :: v != SchemaVersion ==> (v in s <==> v in store) && (v in s ==> s[v] == store[v])
  {
    if SchemaVersion in store then store[SchemaVersion := Remove(store[SchemaVersion], k)] else store
  }

  /** The store after each write of `ws` in turn. */
  function StorePutAll(store: map<string, Table>, ws: seq<(string, Record)>): (s: map<string, Table>)
    requires StoreValid(store)
    ensures StoreValid(s)
    ensures forall v :: v != SchemaVersion ==> (v in s <==> v in store) && (v in s ==> s[v] == store[v])
    decreases |ws|
  {
    if ws == [] then store else StorePutAll(StorePut(store, ws[0].0, ws[0].1), ws[1..])
  }

  /** `StorePutAll` of one or two writes, spelled out. */
  lemma StorePutAllSteps(store: map<string, Table>, ws: seq<(string, Record)>)
    requires StoreValid(store) && 1 <= |ws| <= 2
    ensures |ws| == 1 ==> StorePutAll(store, ws) == StorePut(store, ws[0].0, ws[0].1)
    ensures |ws| == 2 ==> StorePutAll(store, ws) == StorePut(StorePut(store, ws[0].0, ws[0].1), ws[1].0, ws[1].1)
  {
    var s1 := StorePut(store, ws[0].0, ws[0].1);
    assert StorePutAll(store, ws) == StorePutAll(s1, ws[1..]);
    if |ws| == 2 {
      assert StorePutAll(s1, ws[1..]) == StorePutAll(StorePut(s1, ws[1].0, ws[1].1), ws[2..]);
    }
  }

  /** The persisted table holds what memory holds, except that loading may have stripped
      the corrupt key from memory without writing that back. */
  ghost predicate Mirrored(memory: Table, stored: Table)
  {
    memory.entries == stored.entries || memory.entries == stored.entries - {CorruptKey}
  }

  lemma MirroredPut(memory: Table, stored: Table, k: string, r: Record)
    requires memory.Valid() && stored.Valid() && Mirrored(memory, stored)
    ensures Mirrored(Put(memory, k, r), Put(stored, k, r))
  {
    MirroredEntriesPut(memory.entries, stored.entries, k, r);
  }

  lemma MirroredEntriesPut(m: map<string, Record>, s: map<string, Record>, k: string, r: Record)
    requires m == s || m == s - {CorruptKey}
    ensures m[k := r] == s[k := r] || m[k := r] == s[k := r] - {CorruptKey}
  {
    if m != s {
      if k == CorruptKey {
        assert m[k := r] == s[k := r];
      } else {
        assert m[k := r] == s[k := r] - {CorruptKey};
      }
    }
  }

  lemma MirroredRemove(memory: Table, stored: Table, k: string)
    requires memory.Valid() && stored.Valid() && Mirrored(memory, stored)
    ensures Mirrored(Remove(memory, k), Remove(stored, k))
  {
    var m, s := Remove(memory, k).entries, Remove(stored, k).entries;
    if memory.entries == stored.entries {
      assert m == s;
    } else {
      assert m == s - {CorruptKey};
    }
  }

  // ----- initWorkspaces -----

  /** The record seeded into an empty single-URL build. */
  function SeedRecord(id: string): Record
  {
    map["id" := Str(id), "name" := Str(""), "order" := Num(0), "active" := Bool(true)]
  }

  /** The table after the corrupt key is stripped and the legacy table, if any, merged in. */
  function Merged(store: map<string, Table>, appId: string): (t: Table)
    requires StoreValid(store)
    ensures t.Valid()
    ensures forall k :: k in StoredTable(store).entries && k != CorruptKey ==> k in t.entries
    ensures CorruptKey in t.entries ==>
              appId == SingleboxId && LegacyVersion in store && CorruptKey in store[LegacyVersion].entries
  {
    var loaded := Remove(StoredTable(store), CorruptKey);
    if appId == SingleboxId && LegacyVersion in store then Assign(loaded, store[LegacyVersion]) else loaded
  }

  datatype Loaded = Loaded(table: Table, store: map<string, Table>)

  /** The first run of `initWorkspaces`: the live table and the store afterwards. */
  function Load(store: map<string, Table>, appId: string, appUrl: string, seedId: string): (r: Loaded)
    requires StoreValid(store)
    ensures r.table.Valid() && StoreValid(r.store)
  {
    var merged := Merged(store, appId);
    var migrated :=
      if appId == SingleboxId && LegacyVersion in store
      then store[SchemaVersion := merged] - {LegacyVersion}
      else store;
    if appUrl != "" && |merged.keys| < 1 then
      var seeded := Put(merged, seedId, SeedRecord(seedId));
      Loaded(seeded, migrated[SchemaVersion := seeded])
    else
      Loaded(merged, migrated)
  }

  /** After loading, the persisted table mirrors the live one. */
  lemma LoadMirrored(store: map<string, Table>, appId: string, appUrl: string, seedId: string)
    requires StoreValid(store)
    ensures var r := Load(store, appId, appUrl, seedId); Mirrored(r.table, StoredTable(r.store))
  {
    var merged := Merged(store, appId);
    if !(appId == SingleboxId && LegacyVersion in store) && !(appUrl != "" && |merged.keys| < 1) {
      assert merged.entries == StoredTable(store).entries - {CorruptKey};
    }
  }

  /** The loaded table holds no corrupt `add` key, unless the legacy table brought one
      back in (it is merged after the key is stripped) or the seed id is that key. */
  lemma LoadDropsCorruptKey(store: map<string, Table>, appId: string, appUrl: string, seedId: string)
    requires StoreValid(store)
    ensures CorruptKey in Load(store, appId, appUrl, seedId).table.entries ==>
              (appId == SingleboxId && LegacyVersion in store && CorruptKey in store[LegacyVersion].entries)
              || seedId == CorruptKey
  {
    var loaded := Remove(StoredTable(store), CorruptKey);
    assert CorruptKey !in loaded.entries;
  }

  /** In a Singlebox build with legacy data, every legacy entry is taken over (winning over
      a current entry with the same id), current entries are kept, the merged table is
      persisted under the current version and the legacy version is unset. */
  lemma LoadMergesLegacy(store: map<string, Table>, appUrl: string, seedId: string)
    requires StoreValid(store)
    requires LegacyVersion in store
    ensures var r := Load(store, SingleboxId, appUrl, seedId);
      && LegacyVersion !in r.store
      && SchemaVersion in r.store && r.store[SchemaVersion] == r.table
      && (forall k :: k in store[LegacyVersion].entries ==>
            k in r.table.entries && r.table.entries[k] == store[LegacyVersion].entries[k])
      && (forall k :: k in StoredTable(store).entries && k != CorruptKey && k !in store[LegacyVersion].entries ==>
            k in r.table.entries && r.table.entries[k] == StoredTable(store).entries[k])
  {
    var merged := Merged(store, SingleboxId);
    assert merged.entries == (StoredTable(store).entries - {CorruptKey}) + store[LegacyVersion].entries;
  }

  /** A single-URL build whose loaded table is empty gets exactly one workspace, with an
      empty name, order 0 and active, and it is persisted. */
  lemma LoadSeedsDefault(store: map<string, Table>, appId: string, appUrl: string, seedId: string)
    requires StoreValid(store)
    requires appUrl != "" && Merged(store, appId).keys == []
    ensures var r := Load(store, appId, appUrl, seedId);
      && r.table.keys == [seedId]
      && r.table.entries[seedId]["id"] == Str(seedId)
      && r.table.entries[seedId]["name"] == Str("")
      && r.table.entries[seedId]["order"] == Num(0)
      && r.table.entries[seedId]["active"] == Bool(true)
      && StoredTable(r.store) == r.table
  {
    var merged := Merged(store, appId);
    assert seedId !in merged.entries by {
      assert seedId !in merged.keys;
    }
  }

  /** Otherwise nothing is seeded: the live table is the merged one. */
  lemma LoadWithoutSeed(store: map<string, Table>, appId: string, appUrl: string, seedId: string)
    requires StoreValid(store)
    requires appUrl == "" || Merged(store, appId).keys != []
    ensures Load(store, appId, appUrl, seedId).table == Merged(store, appId)
  {
  }

  // ----- createWorkspace -----

  /** A new workspace record for `newId` built from the caller's `obj`: no `picture`, every
      other field of `obj` as given, and inactive, awake, named "" and identified by `newId`
      where `obj` says nothing else. */
  ghost predicate BuiltFrom(r: Record, newId: string, obj: Record)
  {
    && "picture" !in r
    && (forall k :: k in obj && k != "picture" ==> k in r && r[k] == obj[k])
    && ("active" !in obj ==> Field(r, "active") == Some(Bool(false)))
    && ("hibernated" !in obj ==> Field(r, "hibernated") == Some(Bool(false)))
    && ("id" !in obj ==> Field(r, "id") == Some(Str(newId)))
    && ("name" !in obj ==> Field(r, "name") == Some(Str("")))
  }

  /** The record `createWorkspace` stores: defaults, then the caller's fields, without `picture`. */
  function NewRecord(newId: string, maxOrder: int, obj: Record): (r: Record)
    ensures BuiltFrom(r, newId, obj)
    ensures r.Keys == (obj.Keys + {"active", "hibernated", "id", "name", "order"}) - {"picture"}
    ensures "order" !in obj ==> r["order"] == Num(maxOrder + 1)
  {
    var name := if "name" in obj && Truthy(obj["name"]) then obj["name"] else Str("");
    var defaults := map[
      "active" := Bool(false),
      "hibernated" := Bool(false),
      "id" := Str(newId),
      "name" := name,
      "order" := Num(maxOrder + 1)
    ];
    (defaults + obj) - {"picture"}  // `{ ...defaults, ...obj }`, then `delete picture`
  }

  /** `o` is at least 1, above every order in `t`, and either 1 or one more than some order
      in `t`. */
  ghost predicate OrderAbove(t: Table, o: int)
  {
    && o >= 1
    && (forall k :: k in t.entries ==> OrderKey(t.entries[k]) < o)
    && (o == 1 || exists k :: k in t.entries && OrderKey(t.entries[k]) + 1 == o)
  }

  /** With no caller-supplied order, the new record's order is one more than the largest
      order found by the scan over the ordered list (which starts from 0): it is at least 1,
      above every existing order, and either 1 or one more than some existing order. */
  lemma NewOrderExceeds(t: Table, lst: seq<Record>, newId: string, maxOrder: int, obj: Record)
    requires t.Valid()
    requires multiset(lst) == multiset(t.Values())
    requires maxOrder >= 0
    requires forall i :: 0 <= i < |lst| ==> OrderKey(lst[i]) <= maxOrder
    requires maxOrder == 0 || exists i :: 0 <= i < |lst| && OrderKey(lst[i]) == maxOrder
    requires "order" !in obj
    ensures OrderAbove(t, OrderKey(NewRecord(newId, maxOrder, obj)))
  {
    assert OrderKey(NewRecord(newId, maxOrder, obj)) == maxOrder + 1;
    forall k | k in t.entries
      ensures OrderKey(t.entries[k]) <= maxOrder
    {
      ValuesMember(t, t.entries[k]);
      assert t.entries[k] in multiset(lst);
      var i :| 0 <= i < |lst| && lst[i] == t.entries[k];
    }
    if maxOrder != 0 {
      var i :| 0 <= i < |lst| && OrderKey(lst[i]) == maxOrder;
      assert lst[i] in multiset(t.Values());
      ValuesMember(t, lst[i]);
    }
  }

  // ----- getActiveWorkspace / setActiveWorkspace -----

  /** The index of the first active record. */
  function FindActive(vs: seq<Record>): (r: Option<nat>)
    ensures r.None? ==> forall j :: 0 <= j < |vs| ==> !IsActive(vs[j])
    ensures r.Some? ==> r.value < |vs| && IsActive(vs[r.value])
                        && forall j :: 0 <= j < r.value ==> !IsActive(vs[j])
  {
    if vs == [] then None
    else if IsActive(vs[0]) then Some(0)
    else match FindActive(vs[1..])
      case None => None
      case Some(j) => Some(j + 1)
  }

  /** The record under the `i`-th key is active and no earlier one is. */
  ghost predicate FirstActiveAt(t: Table, i: int)
    requires t.Valid()
  {
    && 0 <= i < |t.keys|
    && IsActive(t.entries[t.keys[i]])
    && forall j :: 0 <= j < i ==> !IsActive(t.entries[t.keys[j]])
  }

  /** `Object.values(t).find((w) => w.active)`. */
  function ActiveRecord(t: Table): (r: Option<Record>)
    requires t.Valid()
    ensures r.None? ==> forall k :: k in t.entries ==> !IsActive(t.entries[k])
    ensures r.Some? ==> IsActive(r.value) && exists k :: k in t.entries && t.entries[k] == r.value
    ensures r.Some? ==> exists i :: FirstActiveAt(t, i) && t.entries[t.keys[i]] == r.value
  {
    var vs := t.Values();
    match FindActive(vs)
    case None =>
      assert forall k :: k in t.entries ==> t.entries[k] in vs by {
        forall k | k in t.entries ensures t.entries[k] in vs {
          ValuesMember(t, t.entries[k]);
        }
      }
      None
    case Some(i) =>
      ValuesMember(t, vs[i]);
      Some(vs[i])
  }

  /** The record with `active` set and `hibernated` cleared, other fields kept. */
  function MarkActive(r: Record): Record
  {
    r["active" := Bool(true)]["hibernated" := Bool(false)]
  }

  /** Applies the assignments `t[k] = r` in turn. */
  function PutAll(t: Table, ws: seq<(string, Record)>): (u: Table)
    requires t.Valid()
    ensures u.Valid()
    decreases |ws|
  {
    if ws == [] then t else PutAll(Put(t, ws[0].0, ws[0].1), ws[1..])
  }

  /** The writes of `setActiveWorkspace(id)`, each applied to memory and to the store:
      none when the first active record already has this id; otherwise that record,
      deactivated, under the key its `id` names, then the record under `id` (as it is
      after that first write, or an empty object) with `active` set and `hibernated` cleared. */
  function ActivationWrites(t: Table, id: string): (ws: seq<(string, Record)>)
    requires t.Valid()
    ensures ws == [] <==> ActiveRecord(t).Some? && HasId(ActiveRecord(t).value, id)
    ensures |ws| <= 2
    ensures ws != [] ==> ws[|ws| - 1].0 == id && IsActive(ws[|ws| - 1].1)
    ensures |ws| == 2 ==> !IsActive(ws[0].1)
    ensures |ws| == 2 ==>
              && ActiveRecord(t).Some?
              && ws[0] == (PropertyKey(Field(ActiveRecord(t).value, "id")), ActiveRecord(t).value["active" := Bool(false)])
  {
    match ActiveRecord(t)
    case Some(cur) =>
      if HasId(cur, id) then []
      else
        var key := PropertyKey(Field(cur, "id"));
        var off := cur["active" := Bool(false)];
        [(key, off), (id, MarkActive(Lookup(Put(t, key, off), id)))]
    case None =>
      [(id, MarkActive(Lookup(t, id)))]
  }

  function Activated(t: Table, id: string): (u: Table)
    requires t.Valid()
    ensures u.Valid()
  {
    PutAll(t, ActivationWrites(t, id))
  }

  ghost predicate AtMostOneActive(t: Table)
  {
    forall k, k' :: k in t.entries && k' in t.entries && IsActive(t.entries[k]) && IsActive(t.entries[k']) ==> k == k'
  }

  /** An active record names its own key in its `id` field. */
  ghost predicate ActiveIdsMatchKeys(t: Table)
  {
    forall k :: k in t.entries && IsActive(t.entries[k]) ==> HasId(t.entries[k], k)
  }

  /** The table after activation, case by case. */
  lemma ActivatedShape(t: Table, id: string)
    requires t.Valid()
    ensures ActiveRecord(t).None? ==>
              Activated(t, id) == Put(t, id, MarkActive(Lookup(t, id)))
    ensures ActiveRecord(t).Some? && HasId(ActiveRecord(t).value, id) ==>
              Activated(t, id) == t && ActivationWrites(t, id) == []
    ensures ActiveRecord(t).Some? && !HasId(ActiveRecord(t).value, id) ==>
              var cur := ActiveRecord(t).value;
              var key := PropertyKey(Field(cur, "id"));
              var t1 := Put(t, key, cur["active" := Bool(false)]);
              Activated(t, id) == Put(t1, id, MarkActive(Lookup(t1, id)))
  {
    var ws := ActivationWrites(t, id);
    if ActiveRecord(t).None? {
      var t1 := Put(t, id, MarkActive(Lookup(t, id)));
      assert ws == [(id, MarkActive(Lookup(t, id)))];
      assert PutAll(t, ws) == PutAll(t1, ws[1..]);
      assert ws[1..] == [];
    } else if !HasId(ActiveRecord(t).value, id) {
      var cur := ActiveRecord(t).value;
      var key := PropertyKey(Field(cur, "id"));
      var t1 := Put(t, key, cur["active" := Bool(false)]);
      var t2 := Put(t1, id, MarkActive(Lookup(t1, id)));
      assert ws == [(key, cur["active" := Bool(false)]), (id, MarkActive(Lookup(t1, id)))];
      assert PutAll(t, ws) == PutAll(t1, ws[1..]);
      assert PutAll(t1, ws[1..]) == PutAll(t2, ws[1..][1..]);
      assert ws[1..][1..] == [];
    }
  }

  /** What activating `id` should leave behind, given the table before (`t`) and after (`u`):
      exactly one active record, `id`'s; the previously active record only deactivated;
      every other record unchanged. */
  ghost predicate ActivationOutcome(t: Table, id: string, u: Table)
  {
    && u.entries.Keys == t.entries.Keys + {id}
    && (forall k :: k in u.entries ==> (IsActive(u.entries[k]) <==> k == id))
    && (forall k :: k in t.entries && k != id && !IsActive(t.entries[k]) ==> u.entries[k] == t.entries[k])
    && (forall k :: k in t.entries && k != id && IsActive(t.entries[k]) ==>
          u.entries[k] == t.entries[k]["active" := Bool(false)])
  }

  lemma ActivationFromNone(t: Table, id: string)
    requires t.Valid() && ActiveRecord(t).None?
    ensures ActivationOutcome(t, id, Activated(t, id))
    ensures Activated(t, id).entries[id] == MarkActive(Lookup(t, id))
  {
    ActivatedShape(t, id);
    assert IsActive(MarkActive(Lookup(t, id)));
  }

  lemma OutcomeAfterSwitch(t: Table, id: string, k0: string, u: Table)
    requires t.Valid() && AtMostOneActive(t)
    requires k0 in t.entries && IsActive(t.entries[k0]) && k0 != id
    requires u.entries == t.entries[k0 := t.entries[k0]["active" := Bool(false)]][id := MarkActive(Lookup(t, id))]
    ensures ActivationOutcome(t, id, u)
  {
    assert IsActive(MarkActive(Lookup(t, id)));
    assert !IsActive(t.entries[k0]["active" := Bool(false)]);
    forall k | k in t.entries && IsActive(t.entries[k])
      ensures k == k0
    {
    }
  }

  lemma ActivationFromOther(t: Table, id: string, k0: string)
    requires t.Valid() && AtMostOneActive(t)
    requires ActiveRecord(t).Some? && k0 in t.entries && t.entries[k0] == ActiveRecord(t).value
    requires HasId(t.entries[k0], k0) && k0 != id
    ensures ActivationOutcome(t, id, Activated(t, id))
    ensures Activated(t, id).entries[id] == MarkActive(Lookup(t, id))
  {
    var cur := t.entries[k0];
    assert PropertyKey(Field(cur, "id")) == k0;
    assert !HasId(cur, id);
    ActivatedShape(t, id);
    SwitchedEntries(t, id, k0, Activated(t, id));
    OutcomeAfterSwitch(t, id, k0, Activated(t, id));
  }

  /** Deactivating the record under `k0` and then activating `id` updates just those keys. */
  lemma SwitchedEntries(t: Table, id: string, k0: string, u: Table)
    requires t.Valid() && k0 in t.entries && k0 != id
    requires var t1 := Put(t, k0, t.entries[k0]["active" := Bool(false)]);
             u == Put(t1, id, MarkActive(Lookup(t1, id)))
    ensures u.entries == t.entries[k0 := t.entries[k0]["active" := Bool(false)]][id := MarkActive(Lookup(t, id))]
  {
    var t1 := Put(t, k0, t.entries[k0]["active" := Bool(false)]);
    assert Lookup(t1, id) == Lookup(t, id);
  }

  /** If at most one record was active, and it names its key, then afterwards exactly one
      record is active and it is `id`'s, with its other fields kept (unless it was already
      the first active record, in which case nothing changes). */
  lemma {:induction false} ActivationLeavesOneActive(t: Table, id: string)
    requires t.Valid() && AtMostOneActive(t) && ActiveIdsMatchKeys(t)
    ensures ActivationOutcome(t, id, Activated(t, id))
    ensures Activated(t, id) == t || Activated(t, id).entries[id] == MarkActive(Lookup(t, id))
  {
    match ActiveRecord(t)
    case None =>
      ActivationFromNone(t, id);
    case Some(cur) =>
      var k0 :| k0 in t.entries && t.entries[k0] == cur;
      assert HasId(cur, k0);
      if HasId(cur, id) {
        ActivatedShape(t, id);
        assert k0 == id;
      } else {
        ActivationFromOther(t, id, k0);
      }
  }

  /** Activating the same id a second time changes nothing, provided the record under
      `id` names its key. */
  lemma {:induction false} ActivationIdempotent(t: Table, id: string)
    requires t.Valid() && AtMostOneActive(t) && ActiveIdsMatchKeys(t)
    requires HasId(Lookup(t, id), id)
    ensures Activated(Activated(t, id), id) == Activated(t, id)
    ensures ActivationWrites(Activated(t, id), id) == []
  {
    var u := Activated(t, id);
    ActivationLeavesOneActive(t, id);
    assert HasId(u.entries[id], id);
    match ActiveRecord(u)
    case None =>
      assert false;
    case Some(cur) =>
      var k :| k in u.entries && u.entries[k] == cur;
      assert k == id;
      assert ActivationWrites(u, id) == [];
  }

  /** Activating `id` in an empty table creates a record holding only the two flags. */
  lemma ActivationOfAbsentId(id: string)
    ensures Activated(Empty(), id) == Table([id], map[id := map["active" := Bool(true), "hibernated" := Bool(false)]])
  {
    ActivatedShape(Empty(), id);
  }

  /** On an id that is not in the table, a second activation is not a no-op: the record
      created by the first has no `id` field, so it is not recognised as the target and is
      written back, deactivated, under the key "undefined". */
  lemma ActivationOfAbsentIdTwice(id: string)
    requires id != "undefined"
    ensures var t := Activated(Activated(Empty(), id), id);
      && "undefined" in t.entries
      && t.entries["undefined"] == map["active" := Bool(false), "hibernated" := Bool(false)]
  {
    ActivationOfAbsentId(id);
    var rec := map["active" := Bool(true), "hibernated" := Bool(false)];
    var t1 := Table([id], map[id := rec]);
    SingleActive(id, rec);
    assert PropertyKey(Field(rec, "id")) == "undefined";
    ActivationSwitch(t1, id, rec);
    assert rec["active" := Bool(false)] == map["active" := Bool(false), "hibernated" := Bool(false)];
  }

  /** When the active record names another key than its own, activating a third id leaves
      it active: the deactivated copy goes under the key its `id` names, so two records end
      up active. */
  lemma ActivationKeepsMisnamedActive(k0: string, x: string, id: string, r: Record)
    requires k0 != x && k0 != id && x != id
    requires IsActive(r) && HasId(r, x)
    ensures var u := Activated(Table([k0], map[k0 := r]), id);
      && k0 in u.entries && IsActive(u.entries[k0])
      && id in u.entries && IsActive(u.entries[id])
  {
    var t := Table([k0], map[k0 := r]);
    SingleActive(k0, r);
    assert PropertyKey(Field(r, "id")) == x;
    ActivatedShape(t, id);
    var t1 := Put(t, x, r["active" := Bool(false)]);
    assert t1.entries[k0] == r;
    assert IsActive(MarkActive(Lookup(t1, id)));
  }

  /** With two active records, each naming its own key, activating a third id twice is not a
      no-op: the first call deactivates only the first active record, so the second call
      finds the other one still active and writes again. */
  lemma ActivationTwiceWithTwoActive(a: string, b: string, c: string, ra: Record, rb: Record, rc: Record)
    requires a != b && b != c && a != c
    requires IsActive(ra) && HasId(ra, a) && IsActive(rb) && HasId(rb, b) && HasId(rc, c)
    ensures var t := Table([a, b, c], map[a := ra, b := rb, c := rc]);
      t.Valid() && ActivationWrites(Activated(t, c), c) != []
  {
    var t := Table([a, b, c], map[a := ra, b := rb, c := rc]);
    assert t.Valid();
    FirstActiveIsFirstKey(t);
    assert PropertyKey(Field(ra, "id")) == a;
    ActivatedShape(t, c);
    var u := Activated(t, c);
    assert u.keys == [a, b, c];
    assert !IsActive(u.entries[a]) && u.entries[b] == rb;
    var cur := ActiveRecord(u);
    assert IsActive(u.entries[u.keys[1]]);
    if cur.Some? {
      var i :| FirstActiveAt(u, i) && u.entries[u.keys[i]] == cur.value;
      assert i == 1;
    }
  }

  /** When the record under the first key is active, it is the one `find` returns. */
  lemma FirstActiveIsFirstKey(t: Table)
    requires t.Valid() && t.keys != [] && IsActive(t.entries[t.keys[0]])
    ensures ActiveRecord(t) == Some(t.entries[t.keys[0]])
  {
    var i :| FirstActiveAt(t, i) && t.entries[t.keys[i]] == ActiveRecord(t).value;
    assert FirstActiveAt(t, i);
    assert 0 <= i;
    assert i == 0;
  }

  /** When another record is the first active one, its deactivated copy ends up under the
      key its `id` names (unless that key is `id` itself). */
  lemma ActivationSwitch(t: Table, id: string, cur: Record)
    requires t.Valid() && ActiveRecord(t) == Some(cur) && !HasId(cur, id)
    ensures var key := PropertyKey(Field(cur, "id"));
      key != id ==> key in Activated(t, id).entries && Activated(t, id).entries[key] == cur["active" := Bool(false)]
  {
    ActivatedShape(t, id);
  }

  /** In a one-entry table whose record is active, that record is the active one. */
  lemma SingleActive(k: string, r: Record)
    requires IsActive(r)
    ensures Table([k], map[k := r]).Valid() && ActiveRecord(Table([k], map[k := r])) == Some(r)
  {
    var t := Table([k], map[k := r]);
    assert t.Values() == [r];
    assert FindActive([r]) == Some(0);
  }

  lemma {:induction false} MirroredPutAll(memory: Table, stored: Table, ws: seq<(string, Record)>)
    requires memory.Valid() && stored.Valid() && Mirrored(memory, stored)
    ensures Mirrored(PutAll(memory, ws), PutAll(stored, ws))
    decreases |ws|
  {
    if ws != [] {
      MirroredPut(memory, stored, ws[0].0, ws[0].1);
      MirroredPutAll(Put(memory, ws[0].0, ws[0].1), Put(stored, ws[0].0, ws[0].1), ws[1..]);
    }
  }

  // ----- getWorkspacePreferences / getWorkspacePreference -----

  /** `(getWorkspace(id) || {}).preferences || {}`. */
  function PreferencesOf(w: Option<Record>): (p: Value)
    ensures Truthy(p)
    ensures w.None? || "preferences" !in w.value || !Truthy(w.value["preferences"]) ==> p == Obj(map[])
    ensures w.Some? && "preferences" in w.value && Truthy(w.value["preferences"]) ==> p == w.value["preferences"]
  {
    if w.Some? && "preferences" in w.value && Truthy(w.value["preferences"])
    then w.value["preferences"]
    else Obj(map[])
  }

  /** `getWorkspacePreferences(id)[name]`. */
  function PreferenceOf(w: Option<Record>, name: string): (v: Option<Value>)
    ensures w.None? ==> v.None?
    ensures v.Some? ==> w.Some? && "preferences" in w.value && w.value["preferences"].Obj?
                        && name in w.value["preferences"].fields
                        && v.value == w.value["preferences"].fields[name]
    ensures (w.Some? && "preferences" in w.value && w.value["preferences"].Obj?
             && name in w.value["preferences"].fields) ==> v == Some(w.value["preferences"].fields[name])
  {
    Field(FieldsOf(Some(PreferencesOf(w))), name)
  }
}

=== FILE: navigation.dfy ===
/** Circular neighbour lookup in the ordered list (`getPreviousWorkspace`,
    `getNextWorkspace`). */
module Navigation {
  import opened Values

  /** The index of the first record whose `id` is `id`, if there is one. */
  function Find(lst: seq<Record>, id: string): (r: Option<nat>)
    ensures r.None? ==> forall j :: 0 <= j < |lst| ==> !HasId(lst[j], id)
    ensures r.Some? ==> r.value < |lst| && HasId(lst[r.value], id)
                        && forall j :: 0 <= j < r.value ==> !HasId(lst[j], id)
  {
    if lst == [] then None
    else if HasId(lst[0], id) then Some(0)
    else match Find(lst[1..], id)
      case None => None
      case Some(j) => Some(j + 1)
  }

  /** The index the lookups start from: the first match, or 0 when `id` is unknown. */
  function Position(lst: seq<Record>, id: string): (p: nat)
    ensures lst != [] ==> p < |lst|
    ensures (forall j :: 0 <= j < |lst| ==> !HasId(lst[j], id)) ==> p == 0
    ensures (exists j :: 0 <= j < |lst| && HasId(lst[j], id)) ==>
              HasId(lst[p], id) && forall j :: 0 <= j < p ==> !HasId(lst[j], id)
  {
    match Find(lst, id)
    case None => 0
    case Some(i) => i
  }

  /** The search loop shared by both lookups: `currentWorkspaceI`. */
  method FindPosition(lst: seq<Record>, id: string) returns (current: nat)
    ensures current == Position(lst, id)
    ensures lst != [] ==> current < |lst|
  {
    current := 0;
    var i := 0;
    while i < |lst|
      invariant 0 <= i <= |lst|
      invariant forall j :: 0 <= j < i ==> !HasId(lst[j], id)
      invariant current == 0
    {
      if HasId(lst[i], id) {
        current := i;
        break;
      }
      i := i + 1;
    }
  }

  /** The next record, circularly: the element at (i + 1) mod n. */
  function Next(lst: seq<Record>, id: string): (r: Option<Record>)
    ensures r.Some? <==> lst != []
    ensures r.Some? ==> r.value in lst
  {
    if lst == [] then None else Some(lst[(Position(lst, id) + 1) % |lst|])
  }

  /** The previous record, circularly: the element at (i - 1 + n) mod n. */
  function Previous(lst: seq<Record>, id: string): (r: Option<Record>)
    ensures r.Some? <==> lst != []
    ensures r.Some? ==> r.value in lst
  {
    if lst == [] then None else Some(lst[(Position(lst, id) - 1 + |lst|) % |lst|])
  }

  /** `getNextWorkspace` on an already sorted list, branch for branch. */
  method NextIn(lst: seq<Record>, id: string) returns (r: Option<Record>)
    ensures r == Next(lst, id)
  {
    var current := FindPosition(lst, id);
    if lst != [] {
      Wrap(current + 1, |lst|);
    }
    if current == |lst| - 1 {
      r := Some(lst[0]);
    } else if current + 1 < |lst| {
      r := Some(lst[current + 1]);
    } else {
      // reading past the end of an empty list yields `undefined`
      r := None;
    }
  }

  /** `getPreviousWorkspace` on an already sorted list, branch for branch. */
  method PreviousIn(lst: seq<Record>, id: string) returns (r: Option<Record>)
    ensures r == Previous(lst, id)
  {
    var current := FindPosition(lst, id);
    if lst != [] {
      Wrap(current - 1 + |lst|, |lst|);
    }
    if current == 0 {
      // `lst[lst.length - 1]`, which is `undefined` for an empty list
      r := if lst == [] then None else Some(lst[|lst| - 1]);
    } else {
      r := Some(lst[current - 1]);
    }
  }

  /** Index arithmetic on a circle of size `n`. */
  lemma Wrap(x: int, n: int)
    requires 0 < n && 0 <= x < 2 * n
    ensures x % n == if x < n then x else x - n
  {
    if x < n {
      assert x == 0 * n + x;
    } else {
      assert x == 1 * n + (x - n);
    }
  }

  /** No two records carry the same string `id`; records without one may occur
      (`{ ...workspaces[id] }` of an absent id has none). */
  ghost predicate UniqueIds(lst: seq<Record>)
  {
    forall i, j, id :: 0 <= i < j < |lst| && HasId(lst[i], id) ==> !HasId(lst[j], id)
  }

  /** With unique ids, a record carrying `id` is the first one that does. */
  lemma FirstWithId(lst: seq<Record>, i: nat, id: string)
    requires UniqueIds(lst) && i < |lst| && HasId(lst[i], id)
    ensures forall j :: 0 <= j < i ==> !HasId(lst[j], id)
  {
    forall j | 0 <= j < i
      ensures !HasId(lst[j], id)
    {
      if HasId(lst[j], id) {
        assert false;
      }
    }
  }

  /** The search stops at the first record carrying the id. */
  lemma PositionOfId(lst: seq<Record>, i: nat, id: string)
    requires i < |lst| && HasId(lst[i], id)
    requires forall j :: 0 <= j < i ==> !HasId(lst[j], id)
    ensures Position(lst, id) == i
  {
    assert Find(lst, id).Some?;
  }

  /** An unknown id is treated as the first element: next is element 1 (element 0 when
      there is only one), previous is the last element. */
  lemma UnknownId(lst: seq<Record>, id: string)
    requires lst != []
    requires forall j :: 0 <= j < |lst| ==> !HasId(lst[j], id)
    ensures Next(lst, id) == Some(if |lst| == 1 then lst[0] else lst[1])
    ensures Previous(lst, id) == Some(lst[|lst| - 1])
  {
    assert Position(lst, id) == 0;
  }

  /** Next and previous of a present id are the circular neighbours of the first record
      carrying it. */
  lemma Neighbours(lst: seq<Record>, i: nat, id: string)
    requires i < |lst| && HasId(lst[i], id)
    requires forall j :: 0 <= j < i ==> !HasId(lst[j], id)
    ensures Next(lst, id) == Some(lst[(i + 1) % |lst|])
    ensures Previous(lst, id) == Some(lst[(i - 1 + |lst|) % |lst|])
  {
    PositionOfId(lst, i, id);
  }

  /** Going to the next workspace and then back to the previous one returns to the start,
      provided the next record carries an id (`nid`). */
  lemma PreviousOfNext(lst: seq<Record>, i: nat, id: string, nid: string)
    requires UniqueIds(lst) && i < |lst| && HasId(lst[i], id)
    requires Next(lst, id).Some? && HasId(Next(lst, id).value, nid)
    ensures Previous(lst, nid) == Some(lst[i])
  {
    var n := |lst|;
    Wrap(i + 1, n);
    var k := if i + 1 < n then i + 1 else 0;
    FirstWithId(lst, i, id);
    Neighbours(lst, i, id);
    assert Next(lst, id) == Some(lst[k]);
    Wrap(k - 1 + n, n);
    assert (k - 1 + n) % n == i;
    FirstWithId(lst, k, nid);
    Neighbours(lst, k, nid);
  }

  /** Going to the previous workspace and then on to the next one returns to the start,
      provided the previous record carries an id (`pid`). */
  lemma NextOfPrevious(lst: seq<Record>, i: nat, id: string, pid: string)
    requires UniqueIds(lst) && i < |lst| && HasId(lst[i], id)
    requires Previous(lst, id).Some? && HasId(Previous(lst, id).value, pid)
    ensures Next(lst, pid) == Some(lst[i])
  {
    var n := |lst|;
    Wrap(i - 1 + n, n);
    var k := if i == 0 then n - 1 else i - 1;
    FirstWithId(lst, i, id);
    Neighbours(lst, i, id);
    assert Previous(lst, id) == Some(lst[k]);
    Wrap(k + 1, n);
    assert (k + 1) % n == i;
    FirstWithId(lst, k, pid);
    Neighbours(lst, k, pid);
  }
}

=== FILE: ordering.dfy ===
/** The ordered view of the registry (`getWorkspacesAsList`: a stable sort of the records
    by `order`) and the largest-order scan of `createWorkspace`. */
module Ordering {
  import opened Values

  ghost predicate SortedByOrder(s: seq<Record>)
  {
    forall i, j :: 0 <= i < j < |s| ==> OrderKey(s[i]) <= OrderKey(s[j])
  }

  /** The records of `s` whose order is `k`, in their order in `s`. */
  function WithOrder(s: seq<Record>, k: int): (r: seq<Record>)
    ensures forall x :: x in r ==> x in s && OrderKey(x) == k
  {
    if s == [] then []
    else if OrderKey(s[0]) == k then [s[0]] + WithOrder(s[1..], k)
    else WithOrder(s[1..], k)
  }

  /** Puts `r` before the first element of `s` whose order is not smaller. */
  function InsertByOrder(r: Record, s: seq<Record>): (res: seq<Record>)
    ensures |res| == |s| + 1
    ensures multiset(res) == multiset(s) + multiset{r}
  {
    if s == [] || OrderKey(r) <= OrderKey(s[0]) then [r] + s
    else
      var rest := InsertByOrder(r, s[1..]);
      assert s == [s[0]] + s[1..];
      [s[0]] + rest
  }

  /** The comparator `(a, b) => a.order - b.order` applied by a stable sort. */
  function SortByOrder(s: seq<Record>): (res: seq<Record>)
    ensures |res| == |s|
    ensures multiset(res) == multiset(s)
  {
    if s == [] then []
    else
      assert s == [s[0]] + s[1..];
      InsertByOrder(s[0], SortByOrder(s[1..]))
  }

  lemma SortedCons(x: Record, s: seq<Record>)
    requires SortedByOrder(s)
    requires forall i :: 0 <= i < |s| ==> OrderKey(x) <= OrderKey(s[i])
    ensures SortedByOrder([x] + s)
  {
    var res := [x] + s;
    forall i, j | 0 <= i < j < |res|
      ensures OrderKey(res[i]) <= OrderKey(res[j])
    {
      assert res[j] == s[j - 1];
      if i > 0 {
        assert res[i] == s[i - 1];
      }
    }
  }

  lemma {:induction false} InsertSorted(r: Record, s: seq<Record>)
    requires SortedByOrder(s)
    ensures SortedByOrder(InsertByOrder(r, s))
  {
    if s == [] || OrderKey(r) <= OrderKey(s[0]) {
      SortedCons(r, s);
    } else {
      var rest := InsertByOrder(r, s[1..]);
      InsertSorted(r, s[1..]);
      forall i | 0 <= i < |rest|
        ensures OrderKey(s[0]) <= OrderKey(rest[i])
      {
        var x := rest[i];
        assert x in multiset(rest);
        if x != r {
          assert x in multiset(s[1..]);
          var j :| 0 <= j < |s[1..]| && s[1..][j] == x;
          assert s[j + 1] == x;
        }
      }
      SortedCons(s[0], rest);
    }
  }

  /** `getWorkspacesAsList` is ascending by `order`. */
  lemma {:induction false} SortIsSorted(s: seq<Record>)
    ensures SortedByOrder(SortByOrder(s))
  {
    if s != [] {
      SortIsSorted(s[1..]);
      InsertSorted(s[0], SortByOrder(s[1..]));
    }
  }

  lemma {:induction false} InsertWithOrder(r: Record, s: seq<Record>, k: int)
    ensures WithOrder(InsertByOrder(r, s), k) == WithOrder([r] + s, k)
  {
    if s == [] || OrderKey(r) <= OrderKey(s[0]) {
    } else {
      // r is inserted after s[0], whose order is smaller than r's
      InsertWithOrder(r, s[1..], k);
      var rest := InsertByOrder(r, s[1..]);
      assert ([s[0]] + rest)[1..] == rest;
      assert ([r] + s)[1..] == s;
      if OrderKey(r) == k {
        assert WithOrder([r] + s, k) == [r] + WithOrder(s, k);
        assert WithOrder(s, k) == WithOrder(s[1..], k);
      } else {
        assert WithOrder([r] + s, k) == WithOrder(s, k);
        assert ([r] + s[1..])[1..] == s[1..];
      }
    }
  }

  /** The sort is stable: records of equal order keep the order they had in the input. */
  lemma {:induction false} SortIsStable(s: seq<Record>, k: int)
    ensures WithOrder(SortByOrder(s), k) == WithOrder(s, k)
  {
    if s != [] {
      SortIsStable(s[1..], k);
      InsertWithOrder(s[0], SortByOrder(s[1..]), k);
      assert ([s[0]] + SortByOrder(s[1..]))[1..] == SortByOrder(s[1..]);
    }
  }

  /** The scan of `createWorkspace` for the largest order, starting from 0. */
  method MaxOrder(lst: seq<Record>) returns (max: int)
    ensures max >= 0
    ensures forall i :: 0 <= i < |lst| ==> OrderKey(lst[i]) <= max
    ensures max == 0 || exists i :: 0 <= i < |lst| && OrderKey(lst[i]) == max
  {
    max := 0;
    for i := 0 to |lst|
      invariant max >= 0
      invariant forall j :: 0 <= j < i ==> OrderKey(lst[j]) <= max
      invariant max == 0 || exists j :: 0 <= j < i && OrderKey(lst[j]) == max
    {
      if OrderKey(lst[i]) > max {
        max := OrderKey(lst[i]);
      }
    }
  }
}

=== FILE: tables.dfy ===
/** A JavaScript object used as a table from workspace id to record: its own keys in
    insertion order (the order of `Object.keys` / `Object.values` for non-numeric keys)
    and the record held under each. */
module Tables {
  import opened Values

  datatype Table = Table(keys: seq<string>, entries: map<string, Record>)
  {
    /** Keys are listed once each, and exactly the keys of `entries` are listed. */
    ghost predicate Valid()
    {
      && Distinct(keys)
      && (forall k :: k in entries <==> k in keys)
    }

    /** `Object.values(this)`. */
    function Values(): (vs: seq<Record>)
      requires Valid()
      ensures |vs| == |keys|
      ensures forall i :: 0 <= i < |keys| ==> vs[i] == entries[keys[i]]
    {
      ValuesOf(keys, entries)
    }
  }

  ghost predicate Distinct(s: seq<string>)
  {
    forall i, j :: 0 <= i < j < |s| ==> s[i] != s[j]
  }

  function Empty(): (t: Table)
    ensures t.Valid()
  {
    Table([], map[])
  }

  function ValuesOf(ks: seq<string>, m: map<string, Record>): (vs: seq<Record>)
    requires forall k :: k in ks ==> k in m
    ensures |vs| == |ks|
    ensures forall i :: 0 <= i < |ks| ==> vs[i] == m[ks[i]]
  {
    if ks == [] then [] else [m[ks[0]]] + ValuesOf(ks[1..], m)
  }

  /** `t[k]`; `None` stands for `undefined`. */
  function Get(t: Table, k: string): (r: Option<Record>)
    ensures r.Some? <==> k in t.entries
    ensures r.Some? ==> r.value == t.entries[k]
  {
    if k in t.entries then Some(t.entries[k]) else None
  }

  /** `{ ...t[k] }`: the record under `k`, or the empty object when `k` is absent. */
  function Lookup(t: Table, k: string): (r: Record)
    ensures Get(t, k).Some? ==> r == Get(t, k).value
    ensures Get(t, k).None? ==> r == map[]
  {
    if k in t.entries then t.entries[k] else map[]
  }

  /** The assignment `t[k] = r`: a new key goes last, an existing key keeps its place. */
  function Put(t: Table, k: string, r: Record): (u: Table)
    requires t.Valid()
    ensures u.Valid()
    ensures u.entries == t.entries[k := r]
    ensures k in t.entries ==> u.keys == t.keys
    ensures k !in t.entries ==> u.keys == t.keys + [k]
  {
    if k in t.entries then Table(t.keys, t.entries[k := r]) else Table(t.keys + [k], t.entries[k := r])
  }

  /** `x` occurs in `s` before an occurrence of `y`. */
  ghost predicate Before(s: seq<string>, x: string, y: string)
  {
    exists a, b :: 0 <= a < b < |s| && s[a] == x && s[b] == y
  }

  /** Any two elements of `r` occur in `s` in the same order. */
  ghost predicate InOrder(r: seq<string>, s: seq<string>)
  {
    forall i, j :: 0 <= i < j < |r| ==> Before(s, r[i], r[j])
  }

  lemma InOrderTail(r: seq<string>, s: seq<string>)
    requires s != [] && InOrder(r, s[1..])
    ensures InOrder(r, s)
  {
    forall i, j | 0 <= i < j < |r|
      ensures Before(s, r[i], r[j])
    {
      var a, b :| 0 <= a < b < |s[1..]| && s[1..][a] == r[i] && s[1..][b] == r[j];
      assert s[a + 1] == r[i] && s[b + 1] == r[j];
    }
  }

  lemma InOrderCons(r: seq<string>, s: seq<string>)
    requires s != [] && InOrder(r, s[1..]) && forall x :: x in r ==> x in s[1..]
    ensures InOrder([s[0]] + r, s)
  {
    var r' := [s[0]] + r;
    InOrderTail(r, s);
    forall i, j | 0 <= i < j < |r'|
      ensures Before(s, r'[i], r'[j])
    {
      if i == 0 {
        assert r'[j] == r[j - 1] && r[j - 1] in s[1..];
        var b :| 0 <= b < |s[1..]| && s[1..][b] == r'[j];
        assert s[0] == r'[0] && s[b + 1] == r'[j];
      } else {
        assert r'[i] == r[i - 1] && r'[j] == r[j - 1];
      }
    }
  }

  /** `s` with every occurrence of `k` left out, the rest in order. */
  function RemoveKey(s: seq<string>, k: string): (r: seq<string>)
    ensures forall x :: x in r <==> x in s && x != k
    ensures InOrder(r, s)
    ensures Distinct(s) ==> Distinct(r)
    ensures Distinct(s) && k in s ==> |r| == |s| - 1
    ensures k !in s ==> r == s
  {
    if s == [] then []
    else if s[0] == k then
      var rest := RemoveKey(s[1..], k);
      InOrderTail(rest, s);
      rest
    else
      var rest := RemoveKey(s[1..], k);
      assert Distinct(s) ==> s[0] !in s[1..];
      InOrderCons(rest, s);
      [s[0]] + rest
  }

  /** `delete t[k]`: the other keys keep their order. */
  function Remove(t: Table, k: string): (u: Table)
    requires t.Valid()
    ensures u.Valid()
    ensures u.entries == t.entries - {k}
    ensures |u.keys| == if k in t.entries then |t.keys| - 1 else |t.keys|
    ensures InOrder(u.keys, t.keys)
    ensures k !in t.entries ==> u == t
  {
    Table(RemoveKey(t.keys, k), t.entries - {k})
  }

  lemma {:induction false} RemoveKeyLast(s: seq<string>, k: string)
    requires k !in s
    ensures RemoveKey(s + [k], k) == s
  {
    if s != [] {
      assert (s + [k])[1..] == s[1..] + [k];
      RemoveKeyLast(s[1..], k);
      assert [s[0]] + s[1..] == s;
    } else {
      assert ([k])[1..] == [];
    }
  }

  /** Deleting a key that was just added gives back the table as it was, key order included. */
  lemma RemoveUndoesPut(t: Table, k: string, r: Record)
    requires t.Valid() && k !in t.entries
    ensures Remove(Put(t, k, r), k) == t
  {
    RemoveKeyLast(t.keys, k);
    assert t.entries[k := r] - {k} == t.entries;
  }

  /** Copies `src[k]` into `t` for each `k` of `ks` in turn (the loop of `Object.assign`). */
  function AssignKeys(t: Table, ks: seq<string>, src: map<string, Record>): (u: Table)
    requires t.Valid()
    requires forall k :: k in ks ==> k in src
    ensures u.Valid()
    ensures forall k :: k in u.entries <==> k in t.entries || k in ks
    ensures forall k :: k in ks ==> u.entries[k] == src[k]
    ensures forall k :: k in t.entries && k !in ks ==> u.entries[k] == t.entries[k]
    ensures |t.keys| <= |u.keys| && u.keys[..|t.keys|] == t.keys
    decreases |ks|
  {
    if ks == [] then t
    else
      var t' := Put(t, ks[0], src[ks[0]]);
      var u := AssignKeys(t', ks[1..], src);
      assert forall k :: k in ks <==> k == ks[0] || k in ks[1..];
      assert u.keys[..|t.keys|] == u.keys[..|t'.keys|][..|t.keys|];
      u
  }

  /** One step of `AssignKeys` keeps the appended keys drawn from `ks` and in its order:
      `tk'` is `tk`, or `tk` with `ks[0]` appended, and `uk` extends `tk'`. */
  lemma AppendedStep(tk: seq<string>, tk': seq<string>, uk: seq<string>, ks: seq<string>)
    requires ks != []
    requires tk' == tk || tk' == tk + [ks[0]]
    requires |tk'| <= |uk| && uk[..|tk'|] == tk'
    requires forall x :: x in uk[|tk'|..] ==> x in ks[1..]
    requires InOrder(uk[|tk'|..], ks[1..])
    ensures forall x :: x in uk[|tk|..] ==> x in ks
    ensures InOrder(uk[|tk|..], ks)
  {
    var rest := uk[|tk'|..];
    if tk' == tk {
      InOrderTail(rest, ks);
    } else {
      assert uk[|tk|] == tk'[|tk|] == ks[0];
      assert uk[|tk|..] == [ks[0]] + rest;
      InOrderCons(rest, ks);
    }
  }

  /** The keys `AssignKeys` appends come from `ks`, in the order of `ks`. */
  lemma {:induction false} AssignKeysOrder(t: Table, ks: seq<string>, src: map<string, Record>)
    requires t.Valid()
    requires forall k :: k in ks ==> k in src
    ensures var u := AssignKeys(t, ks, src);
      && (forall x :: x in u.keys[|t.keys|..] ==> x in ks)
      && InOrder(u.keys[|t.keys|..], ks)
    decreases |ks|
  {
    var u := AssignKeys(t, ks, src);
    if ks == [] {
      assert u.keys[|t.keys|..] == [];
    } else {
      var t' := Put(t, ks[0], src[ks[0]]);
      AssignKeysOrder(t', ks[1..], src);
      assert u == AssignKeys(t', ks[1..], src);
      AppendedStep(t.keys, t'.keys, u.keys, ks);
    }
  }

  /** `Object.assign(t, src)`: every entry of `src` is copied in, `src` winning on a shared key;
      the keys of `t` stay first and in their order, and the new keys follow in `src`'s order. */
  function Assign(t: Table, src: Table): (u: Table)
    requires t.Valid() && src.Valid()
    ensures u.Valid()
    ensures u.entries == t.entries + src.entries
    ensures |t.keys| <= |u.keys| && u.keys[..|t.keys|] == t.keys
    ensures forall x :: x in u.keys[|t.keys|..] ==> x in src.entries
    ensures InOrder(u.keys[|t.keys|..], src.keys)
  {
    var u := AssignKeys(t, src.keys, src.entries);
    AssignEntries(t.entries, src.entries, u.entries);
    AssignKeysOrder(t, src.keys, src.entries);
    u
  }

  /** A map holding the keys of `a` and `b`, with `b`'s value on the keys of `b` and `a`'s
      elsewhere, is `a + b`. */
  lemma AssignEntries(a: map<string, Record>, b: map<string, Record>, m: map<string, Record>)
    requires forall k :: k in m <==> k in a || k in b
    requires forall k :: k in b ==> m[k] == b[k]
    requires forall k :: k in a && k !in b ==> m[k] == a[k]
    ensures m == a + b
  {
    assert m.Keys == (a + b).Keys;
    forall k | k in m
      ensures m[k] == (a + b)[k]
    {
      if k in b {
        assert (a + b)[k] == b[k];
      } else {
        assert (a + b)[k] == a[k];
      }
    }
  }

  /** Every value of a table is the record under one of its keys, and conversely. */
  lemma {:induction false} ValuesMember(t: Table, r: Record)
    requires t.Valid()
    ensures r in t.Values() <==> exists k :: k in t.entries && t.entries[k] == r
  {
    var vs := t.Values();
    if r in vs {
      var i :| 0 <= i < |vs| && vs[i] == r;
      assert t.keys[i] in t.entries;
    }
    if exists k :: k in t.entries && t.entries[k] == r {
      var k :| k in t.entries && t.entries[k] == r;
      assert k in t.keys;
      var i :| 0 <= i < |t.keys| && t.keys[i] == k;
      assert vs[i] == r;
    }
  }
}

=== FILE: values.dfy ===
/** JSON-like values as the settings store and the renderer windows see them,
    and the workspace record, which is a plain object of such values. */
module Values {

  datatype Option<+T> = None | Some(value: T)

  /** A value held by a workspace record (numbers are modelled as integers). */
  datatype Value =
    | Str(s: string)
    | Num(n: int)
    | Bool(b: bool)
    | Null
    | Obj(fields: map<string, Value>)

  /** A workspace record: a plain object, key by key. A missing key is `undefined`. */
  type Record = map<string, Value>

  /** JavaScript truthiness of a present value. */
  predicate Truthy(v: Value)
  {
    match v
    case Str(s) => s != ""
    case Num(n) => n != 0
    case Bool(b) => b
    case Null => false
    case Obj(_) => true
  }

  /** Property read `r[name]`; `None` stands for `undefined`. */
  function Field(r: Record, name: string): Option<Value>
  {
    if name in r then Some(r[name]) else None
  }

  /** `r.id === id` for a string `id`. */
  predicate HasId(r: Record, id: string)
  {
    Field(r, "id") == Some(Str(id))
  }

  /** `r.active` is truthy (the test of `find` in getActiveWorkspace). */
  predicate IsActive(r: Record)
  {
    "active" in r && Truthy(r["active"])
  }

  /** The number a record is ordered by; a record without a numeric `order` counts as 0. */
  function OrderKey(r: Record): int
  {
    if "order" in r && r["order"].Num? then r["order"].n else 0
  }

  /** Object spread `{ ...base, ...patch }`: a shallow merge in which `patch` wins. */
  function Merge(base: Record, patch: Record): (r: Record)
    ensures r.Keys == base.Keys + patch.Keys
    ensures forall k :: k in patch ==> r[k] == patch[k]
    ensures forall k :: k in base && k !in patch ==> r[k] == base[k]
  {
    base + patch
  }

  /** The object's own fields, as seen by property reads: anything that is not an
      object has none that the model distinguishes. */
  function FieldsOf(v: Option<Value>): map<string, Value>
  {
    if v.Some? && v.value.Obj? then v.value.fields else map[]
  }

  function DigitChar(d: nat): (c: char)
    requires d < 10
    ensures '0' <= c <= '9' && c as int - '0' as int == d
  {
    "0123456789"[d]
  }

  /** The decimal digits of `n`, most significant first. */
  function Decimal(n: nat): (s: string)
    ensures s != [] && forall i :: 0 <= i < |s| ==> '0' <= s[i] <= '9'
    decreases n
  {
    if n < 10 then [DigitChar(n)] else Decimal(n / 10) + [DigitChar(n % 10)]
  }

  /** The number a string of decimal digits denotes. */
  function DigitsValue(s: string): int
  {
    if s == [] then 0 else 10 * DigitsValue(s[..|s| - 1]) + (s[|s| - 1] as int - '0' as int)
  }

  /** `Decimal` writes exactly the digits of its argument. */
  lemma {:induction false} DecimalValue(n: nat)
    ensures DigitsValue(Decimal(n)) == n
    decreases n
  {
    if n >= 10 {
      DecimalValue(n / 10);
      assert Decimal(n)[..|Decimal(n)| - 1] == Decimal(n / 10);
    }
  }

  /** The property key JavaScript derives from a value (`workspaces[v]`, `${v}`). */
  function PropertyKey(v: Option<Value>): (k: string)
    ensures v.Some? && v.value.Str? ==> k == v.value.s
    ensures v.None? ==> k == "undefined"
    ensures v.Some? && v.value.Num? && v.value.n >= 0 ==>
              && k != [] && (forall i :: 0 <= i < |k| ==> '0' <= k[i] <= '9')
              && DigitsValue(k) == v.value.n
  {
    match v
    case None => "undefined"
    case Some(Str(s)) => s
    case Some(Num(n)) => if n < 0 then "-" + Decimal(-n) else DecimalValue(n); Decimal(n)
    case Some(Bool(b)) => if b then "true" else "false"
    case Some(Null) => "null"
    case Some(Obj(_)) => "[object Object]"
  }
}

=== FILE: workspaces.dfy ===
/** The workspace registry of `public/libs/workspaces.js`: the module-level table of
    workspaces, loaded lazily from the settings store and written back to it on every
    change. Window broadcasts and file-system work are outside the model. */
module Workspaces {
  import opened Values
  import opened Tables
  import opened Ordering
  import opened Navigation
  import opened Lifecycle
  import opened Guards

  class Registry {
    /** `appJson.id` and `appJson.url` of the build (an empty url is a build without one). */
    const appId: string
    const appUrl: string
    /** The id `uuidv1` hands out if loading seeds a default workspace (loading runs once). */
    const seedId: string

    /** Whether the module-level `workspaces` object is set. */
    var initialized: bool
    /** The live table, id to record. */
    var workspaces: Table
    /** The settings store's `workspaces` subtree, by schema version. */
    var store: map<string, Table>

    ghost predicate Valid()
      reads this
    {
      && workspaces.Valid()
      && StoreValid(store)
      && (!initialized ==> workspaces == Empty())
      && (initialized ==> Mirrored(workspaces, StoredTable(store)))
    }

    /** The table and the store as an operation finds them once loading has run. */
    function Ready(): (r: Loaded)
      reads this
      requires Valid()
      ensures r.table.Valid() && StoreValid(r.store)
    {
      if initialized then Loaded(workspaces, store) else Load(store, appId, appUrl, seedId)
    }

    /** The registry is loaded, with this table and store. */
    ghost predicate Holds(r: Loaded)
      reads this
    {
      initialized && workspaces == r.table && store == r.store
    }

    constructor (appId: string, appUrl: string, seedId: string, store: map<string, Table>)
      requires StoreValid(store)
      ensures Valid() && !initialized
      ensures this.appId == appId && this.appUrl == appUrl && this.seedId == seedId
      ensures this.store == store
    {
      this.appId := appId;
      this.appUrl := appUrl;
      this.seedId := seedId;
      this.store := store;
      initialized := false;
      workspaces := Empty();
    }

    /** `initWorkspaces`: loads once, strips the corrupt key, merges Singlebox's legacy
        table, seeds a default workspace in an empty single-URL build. */
    method Init()
      requires Valid()
      modifies this
      ensures Valid()
      ensures Holds(old(Ready()))
      ensures old(initialized) ==> workspaces == old(workspaces) && store == old(store)
    {
      if initialized {
        return;
      }
      LoadMirrored(store, appId, appUrl, seedId);
      var loaded := StoredTable(store);
      if CorruptKey in loaded.entries {
        loaded := Remove(loaded, CorruptKey);
      }
      if appId == SingleboxId {
        if LegacyVersion in store {
          loaded := Assign(loaded, store[LegacyVersion]);
          store := store[SchemaVersion := loaded];
          store := store - {LegacyVersion};
        }
      }
      if appUrl != "" && |loaded.keys| < 1 {
        loaded := Put(loaded, seedId, SeedRecord(seedId));
        store := store[SchemaVersion := loaded];
      }
      workspaces := loaded;
      initialized := true;
    }

    /** `workspaces[k] = r` followed by `settings.setSync('workspaces.43.<k>', r)`. */
    method Write(k: string, r: Record)
      requires Valid() && initialized
      modifies this
      ensures Valid() && initialized
      ensures workspaces == Put(old(workspaces), k, r)
      ensures store == StorePut(old(store), k, r)
      ensures StoredTable(store).entries[k] == workspaces.entries[k]
    {
      MirroredPut(workspaces, StoredTable(store), k, r);
      workspaces := Put(workspaces, k, r);
      store := StorePut(store, k, r);
    }

    /** `delete workspaces[k]` followed by `settings.unsetSync('workspaces.43.<k>')`. */
    method Unset(k: string)
      requires Valid() && initialized
      modifies this
      ensures Valid() && initialized
      ensures workspaces == Remove(old(workspaces), k)
      ensures store == StoreUnset(old(store), k)
    {
      MirroredRemove(workspaces, StoredTable(store), k);
      workspaces := Remove(workspaces, k);
      store := StoreUnset(store, k);
    }

    /** `countWorkspaces`. */
    method CountWorkspaces() returns (n: nat)
      requires Valid()
      modifies this
      ensures Valid() && Holds(old(Ready()))
      ensures n == |workspaces.keys| && n == |workspaces.Values()|
    {
      Init();
      n := |workspaces.keys|;
    }

    /** `getWorkspaces`: the live table. */
    method GetWorkspaces() returns (t: Table)
      requires Valid()
      modifies this
      ensures Valid() && Holds(old(Ready()))
      ensures t == workspaces
    {
      Init();
      t := workspaces;
    }

    /** `getWorkspacesAsList`: all records, ascending by order, ties in table order. */
    method GetWorkspacesAsList() returns (lst: seq<Record>)
      requires Valid()
      modifies this
      ensures Valid() && Holds(old(Ready()))
      ensures lst == SortByOrder(workspaces.Values())
      ensures multiset(lst) == multiset(workspaces.Values())
      ensures SortedByOrder(lst)
    {
      Init();
      lst := SortByOrder(workspaces.Values());
      SortIsSorted(workspaces.Values());
    }

    /** `getWorkspace`. */
    method GetWorkspace(id: string) returns (w: Option<Record>)
      requires Valid()
      modifies this
      ensures Valid() && Holds(old(Ready()))
      ensures w == Get(workspaces, id)
    {
      Init();
      w := Get(workspaces, id);
    }

    /** `getWorkspacePreferences`. */
    method GetWorkspacePreferences(id: string) returns (p: Value)
      requires Valid()
      modifies this
      ensures Valid() && Holds(old(Ready()))
      ensures p == PreferencesOf(Get(workspaces, id))
    {
      var w := GetWorkspace(id);
      p := PreferencesOf(w);
    }

    /** `getWorkspacePreference`. */
    method GetWorkspacePreference(id: string, name: string) returns (v: Option<Value>)
      requires Valid()
      modifies this
      ensures Valid() && Holds(old(Ready()))
      ensures v == PreferenceOf(Get(workspaces, id), name)
    {
      var p := GetWorkspacePreferences(id);
      v := Field(FieldsOf(Some(p)), name);
    }

    /** `getPreviousWorkspace`. */
    method GetPreviousWorkspace(id: string) returns (r: Option<Record>)
      requires Valid()
      modifies this
      ensures Valid() && Holds(old(Ready()))
      ensures r == Previous(SortByOrder(workspaces.Values()), id)
    {
      var lst := GetWorkspacesAsList();
      r := PreviousIn(lst, id);
    }

    /** `getNextWorkspace`. */
    method GetNextWorkspace(id: string) returns (r: Option<Record>)
      requires Valid()
      modifies this
      ensures Valid() && Holds(old(Ready()))
      ensures r == Next(SortByOrder(workspaces.Values()), id)
    {
      var lst := GetWorkspacesAsList();
      r := NextIn(lst, id);
    }

    /** The first half of `createWorkspace(obj)`: the scan for the largest order over the
        ordered list, and the record built for `newId`; nothing is written yet. */
    method NewWorkspace(newId: string, obj: Record) returns (rec: Record)
      requires Valid()
      modifies this
      ensures Valid() && Holds(old(Ready()))
      ensures BuiltFrom(rec, newId, obj)
      ensures "order" !in obj ==>
                && Field(rec, "order").Some? && Field(rec, "order").value.Num?
                && OrderAbove(workspaces, OrderKey(rec))
    {
      var lst := GetWorkspacesAsList();
      var max := MaxOrder(lst);
      rec := NewRecord(newId, max, obj);
      if "order" !in obj {
        NewOrderExceeds(workspaces, lst, newId, max, obj);
      }
    }

    /** `createWorkspace(obj)` with `newId` as the fresh id: the record gets the defaults,
        the caller's fields over them, never a `picture`, and (unless the caller gave one)
        an order one above the largest, at least 1; it is stored and persisted under
        `newId`, nothing else changes. */
    method CreateWorkspace(newId: string, obj: Record) returns (rec: Record)
      requires Valid()
      modifies this
      ensures Valid() && initialized
      ensures BuiltFrom(rec, newId, obj)
      ensures "order" !in obj ==>
                && Field(rec, "order").Some? && Field(rec, "order").value.Num?
                && OrderAbove(old(Ready()).table, OrderKey(rec))
      ensures workspaces == Put(old(Ready()).table, newId, rec)
      ensures store == StorePut(old(Ready()).store, newId, rec)
    {
      rec := NewWorkspace(newId, obj);
      Write(newId, rec);
    }

    /** `getActiveWorkspace`: nothing before loading, else the first active record in
        table order. */
    function GetActiveWorkspace(): (r: Option<Record>)
      reads this
      requires Valid()
      ensures r.Some? ==> initialized && IsActive(r.value)
                          && exists k :: k in workspaces.entries && workspaces.entries[k] == r.value
      ensures r.None? ==> !initialized || forall k :: k in workspaces.entries ==> !IsActive(workspaces.entries[k])
      ensures r.Some? ==> exists i :: FirstActiveAt(workspaces, i) && workspaces.entries[workspaces.keys[i]] == r.value
    {
      if !initialized then None else ActiveRecord(workspaces)
    }

    /** `setActiveWorkspace(id)`. Before loading the source throws (it reads a property of
        the unset table); `ok` is false then and nothing changes. */
    method SetActiveWorkspace(id: string) returns (ok: bool)
      requires Valid()
      modifies this
      ensures Valid()
      ensures ok == old(initialized) && initialized == old(initialized)
      ensures !ok ==> workspaces == old(workspaces) && store == old(store)
      ensures ok ==> workspaces == Activated(old(workspaces), id)
      ensures ok ==> store == StorePutAll(old(store), ActivationWrites(old(workspaces), id))
    {
      var current := GetActiveWorkspace();
      if !initialized {
        ok := false;
        return;
      }
      ok := true;
      ActivatedShape(workspaces, id);
      if current.Some? {
        if HasId(current.value, id) {
          return;
        }
        var off := current.value["active" := Bool(false)];
        var key := PropertyKey(Field(current.value, "id"));
        StorePutAllSteps(store, [(key, off), (id, MarkActive(Lookup(Put(workspaces, key, off), id)))]);
        Write(key, off);
      } else {
        StorePutAllSteps(store, [(id, MarkActive(Lookup(workspaces, id)))]);
      }
      Write(id, MarkActive(Lookup(workspaces, id)));
    }

    /** `setWorkspace(id, opts)`: a shallow merge of `opts` over the record (or over nothing),
        stored and persisted under `id`; before loading the source throws and nothing changes. */
    method SetWorkspace(id: string, opts: Record) returns (ok: bool)
      requires Valid()
      modifies this
      ensures Valid()
      ensures ok == old(initialized) && initialized == old(initialized)
      ensures !ok ==> workspaces == old(workspaces) && store == old(store)
      ensures ok ==> workspaces == Put(old(workspaces), id, Merge(Lookup(old(workspaces), id), opts))
      ensures ok ==> store == StorePut(old(store), id, Merge(Lookup(old(workspaces), id), opts))
      ensures ok ==> StoredTable(store).entries[id] == workspaces.entries[id]
    {
      if !initialized {
        ok := false;
        return;
      }
      ok := true;
      var w := Merge(Lookup(workspaces, id), opts);
      Write(id, w);
    }

    /** `setWorkspaces(t)`: the whole table is replaced and persisted. */
    method SetWorkspaces(t: Table)
      requires Valid() && t.Valid()
      modifies this
      ensures Valid()
      ensures initialized && workspaces == t
      ensures store == old(store)[SchemaVersion := t]
    {
      workspaces := t;
      store := store[SchemaVersion := t];
      initialized := true;
    }

    /** `setWorkspacePicture(id, source)`, with the asynchronous part run to its end right
        away: `pictureId` and `dest` are the new picture's id and file, `decoded` whether
        fetching (for a URL), reading and resizing the source succeeded. The resized image's
        write reports to `resolve`, so its outcome does not stop the chain. An absent
        workspace throws (`ok` is false); a picture already at `source`, or a source that
        could not be fetched or decoded, changes nothing; otherwise the record points at the
        new file and `stale` is the old file to delete, if any. */
    method SetWorkspacePicture(id: string, source: string, pictureId: string, dest: string, decoded: bool)
      returns (ok: bool, stale: Option<Value>)
      requires Valid()
      modifies this
      ensures Valid() && initialized
      ensures ok <==> id in old(Ready()).table.entries
      ensures ok && !PictureUnchanged(old(Ready()).table.entries[id], source) && decoded ==>
                && workspaces == Put(old(Ready()).table, id, WithPicture(old(Ready()).table.entries[id], pictureId, dest))
                && store == StorePut(old(Ready()).store, id, WithPicture(old(Ready()).table.entries[id], pictureId, dest))
                && stale == (if HasPicture(old(Ready()).table.entries[id])
                             then Some(old(Ready()).table.entries[id]["picturePath"]) else None)
      ensures !(ok && !PictureUnchanged(old(Ready()).table.entries[id], source) && decoded) ==>
                Holds(old(Ready())) && stale == None
    {
      stale := None;
      var w := GetWorkspace(id);
      if w.None? {
        ok := false;
        return;
      }
      ok := true;
      if PictureUnchanged(w.value, source) || !decoded {
        return;
      }
      var current := Field(w.value, "picturePath");
      var _ := SetWorkspace(id, map["pictureId" := Str(pictureId), "picturePath" := Str(dest)]);
      if current.Some? && Truthy(current.value) {
        stale := current;
      }
    }

    /** `removeWorkspacePicture(id)`, with `removed` the outcome of deleting the file. An
        absent workspace throws (`ok` is false); a record with a picture path names that
        file in `file`, and once it is deleted both picture fields become null. */
    method RemoveWorkspacePicture(id: string, removed: bool) returns (ok: bool, file: Option<Value>)
      requires Valid()
      modifies this
      ensures Valid() && initialized
      ensures ok <==> id in old(Ready()).table.entries
      ensures file.Some? <==> ok && HasPicture(old(Ready()).table.entries[id])
      ensures file.Some? ==> file.value == old(Ready()).table.entries[id]["picturePath"]
      ensures file.Some? && removed ==>
                && workspaces == Put(old(Ready()).table, id, WithoutPicture(old(Ready()).table.entries[id]))
                && store == StorePut(old(Ready()).store, id, WithoutPicture(old(Ready()).table.entries[id]))
      ensures !(file.Some? && removed) ==> Holds(old(Ready()))
    {
      file := None;
      var w := GetWorkspace(id);
      if w.None? {
        ok := false;
        return;
      }
      ok := true;
      if HasPicture(w.value) {
        file := Some(w.value["picturePath"]);
        if removed {
          var _ := SetWorkspace(id, map["pictureId" := Null, "picturePath" := Null]);
        }
      }
    }

    /** `setWorkspaceAccountInfo(id, info)`, with the asynchronous part run to its end right
        away: `pictureId` and `picturePath` name the account picture's file, `downloaded`
        whether fetching it succeeded. Nothing changes for an absent workspace or unchanged
        info, nor when a needed download fails; otherwise a copy of `info` (with the
        picture's id and path after a download) is stored as the record's `accountInfo`. */
    method SetWorkspaceAccountInfo(id: string, info: map<string, Value>, pictureId: string, picturePath: string,
                                   downloaded: bool)
      returns (plan: AccountPlan)
      requires Valid()
      modifies this
      ensures Valid() && initialized
      ensures plan == PlanAccountInfo(Get(old(Ready()).table, id), info)
      ensures plan.Update? && (!plan.download || downloaded) ==>
                var w' := WithAccountInfo(old(Ready()).table.entries[id],
                                          Obj(StoredAccountInfo(info, plan.download, pictureId, picturePath)));
                && workspaces == Put(old(Ready()).table, id, w')
                && store == StorePut(old(Ready()).store, id, w')
      ensures !(plan.Update? && (!plan.download || downloaded)) ==> Holds(old(Ready()))
    {
      var w := GetWorkspace(id);
      plan := PlanAccountInfo(w, info);
      if plan.NoChange? || (plan.download && !downloaded) {
        return;
      }
      var a := StoredAccountInfo(info, plan.download, pictureId, picturePath);
      var _ := SetWorkspace(id, map["accountInfo" := Obj(a)]);
    }

    /** `removeWorkspaceAccountInfo(id)`: `accountInfo` is set to null under `id` (a record
        holding only that is created when there was none), then an absent workspace throws
        (`ok` is false); otherwise `file` is the account picture to delete, if any. */
    method RemoveWorkspaceAccountInfo(id: string) returns (ok: bool, file: Option<Value>)
      requires Valid()
      modifies this
      ensures Valid() && initialized
      ensures workspaces == Put(old(Ready()).table, id, Merge(Lookup(old(Ready()).table, id), map["accountInfo" := Null]))
      ensures store == StorePut(old(Ready()).store, id, Merge(Lookup(old(Ready()).table, id), map["accountInfo" := Null]))
      ensures ok <==> id in old(Ready()).table.entries
      ensures file == if ok then AccountPictureOf(old(Ready()).table.entries[id]) else None
      ensures AccountPictureOf(workspaces.entries[id]).None?
    {
      var w := GetWorkspace(id);
      var _ := SetWorkspace(id, map["accountInfo" := Null]);
      if w.None? {
        ok, file := false, None;
        return;
      }
      ok := true;
      file := AccountPictureOf(w.value);
    }

    /** `removeWorkspace(id)`: the entry leaves memory and the store at once; `cleanup` lists
        the picture files the asynchronous clean-up deletes after the partition directory.
        Before loading the source throws and nothing changes. */
    method RemoveWorkspace(id: string) returns (ok: bool, cleanup: seq<Value>)
      requires Valid()
      modifies this
      ensures Valid()
      ensures ok == old(initialized) && initialized == old(initialized)
      ensures !ok ==> workspaces == old(workspaces) && store == old(store)
      ensures ok ==> workspaces == Remove(old(workspaces), id)
      ensures ok ==> store == StoreUnset(old(store), id)
      ensures ok ==> id !in workspaces.entries && id !in StoredTable(store).entries
      ensures ok ==> forall k :: k != id && k in old(workspaces).entries ==>
                       k in workspaces.entries && workspaces.entries[k] == old(workspaces).entries[k]
      ensures cleanup == if ok then RemovalFiles(Get(old(workspaces), id)) else []
      ensures forall v :: v in cleanup ==> Truthy(v)
    {
      cleanup := [];
      if !initialized {
        ok := false;
        return;
      }
      ok := true;
      var w := Get(workspaces, id);
      Unset(id);
      if w.Some? {
        if HasPicture(w.value) {
          cleanup := cleanup + [w.value["picturePath"]];
        }
        var accountPicture := AccountPictureOf(w.value);
        if accountPicture.Some? {
          cleanup := cleanup + [accountPicture.value];
        }
      }
    }
  }
}
